=== FILE: README.md ===
# SimpleMongoConverter, modelled in Dafny

This project models the object-to-document mapper of Spring Data MongoDB's
early `SimpleMongoConverter`. The mapper turns typed entities into
`DBObject` documents and turns documents back into entities. The model is
functional. Classes, values, entities and documents are immutable
datatypes. `write` and `read` are pure functions that recurse on the
structure of their input. Any exception the Java code would throw becomes
a `Failure` of a `Result`.

Modules, leaf first:

- `Results` (`results.dfy`): `Result` and the exceptions that can escape.
- `JavaTypes` (`java_types.dfy`): runtime classes (`Cls`) and reflective types (`Ty`).
  It holds the fixed simple-type name set, `IsSimpleType` and `GetGenericParameters`.
- `Documents` (`documents.dfy`): runtime values, entities as a class name plus
  ordered fields (descriptor and value), and documents. A document is an
  ordered list of key/value pairs whose `Put` replaces a value in place or appends.
- `Conversions` (`conversions.dfy`): the conversion registry as an ordered
  list of directed rules, the lookup and `Convert`, the four `ObjectId`
  converters, `initializeConverters` and `setConverters`.
- `Writer` (`writer.dfy`): `write`, `writeValue`, `writeCompoundValue`, `writeMap`,
  `writeArray` and `getCustomTargetType`. `writeValue(dbo, key, v)` always
  ends in exactly one `dbo.put(key, x)`, and `x` does not depend on `dbo`.
  So `EncodeValue` computes `x` and the caller puts it.
- `Reader` (`reader.dfy`): `read`, `readCollection`, `readCompoundValue` and `readMap`.
- `WriterProperties` and `RoundTrip` (`writer_properties.dfy`, `round_trip.dfy`):
  lemmas about the writer, and write-then-read round trips.

Some collaborators are not part of this model and are parameters instead:

- the bean wrapper's descriptors, which are data inside each `Entity`;
- `BeanUtils.instantiateClass`, the `instantiate` map of fresh instances;
- `CollectionFactory`, the `collect` function;
- the default conversion service, the `defaults` registry;
- the `ObjectId`/`BigInteger` library, the `Bson` record of uninterpreted functions;
- what `write` yields for an object that is not a modelled entity, `reflectWrite`.

Two points about how the code behaves, which the model follows:

- Reading classifies a stored value by its runtime class, through
  `value.getClass()` in `read` (`SimpleMongoConverter.java:347`) and in
  `readMap` (`SimpleMongoConverter.java:448`). The declared property type
  only decides how a nested document or collection is read.
- A map whose keys are not `String`s is not rejected by any explicit
  check. It fails only through the unchecked cast of the key to `String`
  in `writeMap` (`SimpleMongoConverter.java:288`), so the model reports
  `ClassCast`.

## Model

| member | source | states |
|---|---|---|
| `JavaTypes.IsSimpleClass` | spring-data-mongodb/src/main/java/org/springframework/data/document/mongodb/convert/SimpleMongoConverter.java:459-467 | no contract of its own; see `JavaTypes.SimpleIffElementNameListed` |
| `JavaTypes.IsSimpleType` | spring-data-mongodb/src/main/java/org/springframework/data/document/mongodb/convert/SimpleMongoConverter.java:459-467 | no contract of its own; see `JavaTypes.ArrayOfDepthSimple` |
| `Documents.Put` | spring-data-mongodb/src/main/java/org/springframework/data/document/mongodb/convert/SimpleMongoConverter.java:209-210 | the key then holds the value, every other key keeps its value, the key set gains exactly the key, an existing key is replaced in place and a new one appended |
| `Documents.PutKeepsKeysUnique` | spring-data-mongodb/src/main/java/org/springframework/data/document/mongodb/convert/SimpleMongoConverter.java:209 | putting into a document whose keys are distinct keeps them distinct, so a document built by puts holds each key once, as a `DBObject` does |
| `Conversions.ObjectIdToString` | spring-data-mongodb/src/main/java/org/springframework/data/document/mongodb/convert/SimpleMongoConverter.java:533-539 | no contract of its own; see `Conversions.SeededConversions` |
| `Conversions.StringToObjectId` | spring-data-mongodb/src/main/java/org/springframework/data/document/mongodb/convert/SimpleMongoConverter.java:546-552 | no contract of its own; see `Conversions.SeededConversions` |
| `Conversions.ObjectIdToBigInteger` | spring-data-mongodb/src/main/java/org/springframework/data/document/mongodb/convert/SimpleMongoConverter.java:559-565 | no contract of its own; see `Conversions.SeededConversions` |
| `Conversions.BigIntegerToId` | spring-data-mongodb/src/main/java/org/springframework/data/document/mongodb/convert/SimpleMongoConverter.java:572-578 | no contract of its own; see `Conversions.SeededConversions` |
| `Writer.Write` | spring-data-mongodb/src/main/java/org/springframework/data/document/mongodb/convert/SimpleMongoConverter.java:159-195 | no contract of its own; see `WriterProperties.WriteKeys` and `RoundTrip.EntityRoundTrip` |
| `Writer.WriteFields` | spring-data-mongodb/src/main/java/org/springframework/data/document/mongodb/convert/SimpleMongoConverter.java:161-194 | no contract of its own; see `WriterProperties.WriteFieldsContents` and `WriterProperties.WriteFieldsSucceed` |
| `Writer.StoredValue` | spring-data-mongodb/src/main/java/org/springframework/data/document/mongodb/convert/SimpleMongoConverter.java:170-188 | no contract of its own; see `WriterProperties.IdCoercion` and `WriterProperties.EnumStoredAsName` |
| `Writer.EncodeValue` | spring-data-mongodb/src/main/java/org/springframework/data/document/mongodb/convert/SimpleMongoConverter.java:204-211 | no contract of its own; see `WriterProperties.CollectionStoredAsArray` and `WriterProperties.CustomTargetStored` |
| `Writer.EncodeCompound` | spring-data-mongodb/src/main/java/org/springframework/data/document/mongodb/convert/SimpleMongoConverter.java:221-246 | no contract of its own; see `WriterProperties.MapStoredAsDocument` and `WriterProperties.CustomTargetStored` |
| `Writer.WriteNested` | spring-data-mongodb/src/main/java/org/springframework/data/document/mongodb/convert/SimpleMongoConverter.java:243-245 | no contract of its own; see `RoundTrip.NestedStoredAsDocument` |
| `Writer.WriteMapEntries` | spring-data-mongodb/src/main/java/org/springframework/data/document/mongodb/convert/SimpleMongoConverter.java:272-298 | no contract of its own; see `RoundTrip.WriteMapPlain` and `WriterProperties.MapStoredAsDocument` |
| `Writer.EncodeArray` | spring-data-mongodb/src/main/java/org/springframework/data/document/mongodb/convert/SimpleMongoConverter.java:307-325 | no contract of its own; see `WriterProperties.EncodeArrayElementwise` |
| `Writer.EncodeElement` | spring-data-mongodb/src/main/java/org/springframework/data/document/mongodb/convert/SimpleMongoConverter.java:313-319 | no contract of its own; see `WriterProperties.EncodeElementCases` |
| `Reader.ReadProperty` | spring-data-mongodb/src/main/java/org/springframework/data/document/mongodb/convert/SimpleMongoConverter.java:344-367 | no contract of its own; see `Reader.ReadPropertyCases` and `RoundTrip.ReadBack` |
| `JavaTypes.SimpleIffElementNameListed` | spring-data-mongodb/src/main/java/org/springframework/data/document/mongodb/convert/SimpleMongoConverter.java:459-467 | a class is simple exactly when the class under all its array layers is named in the fixed simple-type set |
| `JavaTypes.ArrayOfDepthSimple` | spring-data-mongodb/src/main/java/org/springframework/data/document/mongodb/convert/SimpleMongoConverter.java:463-465 | an array class, nested to any depth, is simple exactly when its base class is |
| `JavaTypes.ContainersAreCompound` | spring-data-mongodb/src/main/java/org/springframework/data/document/mongodb/convert/SimpleMongoConverter.java:58-106 | null is not simple; maps, lists, `BasicDBObject`, `BasicDBList`, `Object[]` and `BigInteger` are compound; `String` and `ObjectId` are simple |
| `JavaTypes.ResolveArgument` | spring-data-mongodb/src/main/java/org/springframework/data/document/mongodb/convert/SimpleMongoConverter.java:489-506 | a class argument resolves to itself, a parameterized one to its raw class, a generic array of a class to the array class; a generic array of anything else fails the cast to `Class`; a type variable or other kind fails with "Can not map" |
| `JavaTypes.ResolveArguments` | spring-data-mongodb/src/main/java/org/springframework/data/document/mongodb/convert/SimpleMongoConverter.java:488-508 | succeeds exactly when every argument resolves, giving one class per argument in order; a failure is some argument's failure |
| `JavaTypes.GetGenericParameters` | spring-data-mongodb/src/main/java/org/springframework/data/document/mongodb/convert/SimpleMongoConverter.java:481-512 | empty for a non-parameterized type; otherwise one resolved class per type argument; fails whenever an argument is a type variable, and with a class-cast failure when the only unresolvable arguments are generic arrays of non-classes |
| `Conversions.LastMatch` | spring-data-mongodb/src/main/java/org/springframework/data/document/mongodb/convert/SimpleMongoConverter.java:139-145 | finds the most recently added rule for a (source, target) pair; no later rule matches |
| `Conversions.Convert` | spring-data-mongodb/src/main/java/org/springframework/data/document/mongodb/convert/SimpleMongoConverter.java:517-526 | null converts to null; a pair the registry cannot convert fails with converter-not-found; the only failures are not-found and conversion-failed |
| `Conversions.InitializeConverters` | spring-data-mongodb/src/main/java/org/springframework/data/document/mongodb/convert/SimpleMongoConverter.java:123-129 | adds exactly four rules after the existing ones and keeps the existing ones unchanged |
| `Conversions.SeededConversions` | spring-data-mongodb/src/main/java/org/springframework/data/document/mongodb/convert/SimpleMongoConverter.java:533-578 | with any defaults, the seeded registry converts String to ObjectId and back, and ObjectId to BigInteger and back, exactly as the four converter enums do |
| `Conversions.LatestRuleWins` | spring-data-mongodb/src/main/java/org/springframework/data/document/mongodb/convert/SimpleMongoConverter.java:136-151 | a converter registered after the others decides the conversion for its pair |
| `Conversions.SetConverters` | spring-data-mongodb/src/main/java/org/springframework/data/document/mongodb/convert/SimpleMongoConverter.java:136-151 | with no rejected element, all rules are added in order; otherwise fails with IllegalArgument at the first element that is neither converter nor factory, keeping the rules of the elements before it |
| `Writer.CustomTargetFrom` | spring-data-mongodb/src/main/java/org/springframework/data/document/mongodb/convert/SimpleMongoConverter.java:257-262 | returns the first remaining candidate class the registry can convert to, or none when it can convert to none of them |
| `Writer.GetCustomTargetType` | spring-data-mongodb/src/main/java/org/springframework/data/document/mongodb/convert/SimpleMongoConverter.java:255-263 | the first of the candidate classes Number, Date, String, DBObject (the `MONGO_TYPES` list at `SimpleMongoConverter.java:55`, in that order) the value's class converts to, or none when it converts to none of them |
| `WriterProperties.WriteFieldsKeys` | spring-data-mongodb/src/main/java/org/springframework/data/document/mongodb/convert/SimpleMongoConverter.java:159-195 | the document gains exactly the keys of the mappable properties with non-null values |
| `WriterProperties.WriteKeys` | spring-data-mongodb/src/main/java/org/springframework/data/document/mongodb/convert/SimpleMongoConverter.java:159-168 | writing into an empty document yields exactly the keys of the mappable, non-null properties |
| `WriterProperties.WriteFieldsContents` | spring-data-mongodb/src/main/java/org/springframework/data/document/mongodb/convert/SimpleMongoConverter.java:162-194 | a key no stored property uses keeps its old value; a stored property's key holds its stored value unless a later property reuses the key |
| `WriterProperties.WriteStoresValue` | spring-data-mongodb/src/main/java/org/springframework/data/document/mongodb/convert/SimpleMongoConverter.java:170-188 | after a successful write, the key of a property that no later property shares is present and holds the property's stored value |
| `WriterProperties.EnumStoredAsName` | spring-data-mongodb/src/main/java/org/springframework/data/document/mongodb/convert/SimpleMongoConverter.java:172-173 | an enum property is stored as the constant's name; a non-enum value there is a class-cast failure |
| `WriterProperties.SeededIdConversionIsSimple` | spring-data-mongodb/src/main/java/org/springframework/data/document/mongodb/convert/SimpleMongoConverter.java:174-177 | with the converter's own registry, every String-to-ObjectId conversion yields a simple value |
| `WriterProperties.IdCoercion` | spring-data-mongodb/src/main/java/org/springframework/data/document/mongodb/convert/SimpleMongoConverter.java:174-185 | a valid id string is stored as the ObjectId its constructor yields, or as the string itself when the constructor rejects it, with no failure; any other id value is stored as writeValue renders it |
| `WriterProperties.EncodeArrayElementwise` | spring-data-mongodb/src/main/java/org/springframework/data/document/mongodb/convert/SimpleMongoConverter.java:307-325 | writeArray succeeds exactly when every element encodes, giving an array of the same length with each element encoded at its own index |
| `WriterProperties.EncodeElementCases` | spring-data-mongodb/src/main/java/org/springframework/data/document/mongodb/convert/SimpleMongoConverter.java:314-320 | a simple element is copied; any other element, map or collection included, becomes the document write produces for it; null fails |
| `WriterProperties.CollectionStoredAsArray` | spring-data-mongodb/src/main/java/org/springframework/data/document/mongodb/convert/SimpleMongoConverter.java:226-235 | a collection, BasicDBList or object array is stored as an Object[] exactly when every element encodes, holding at each index the element encoded as writeArray encodes it |
| `WriterProperties.CustomTargetStored` | spring-data-mongodb/src/main/java/org/springframework/data/document/mongodb/convert/SimpleMongoConverter.java:237-245 | a compound non-container value with a custom target is stored as its conversion; only without one is it written as a nested document |
| `WriterProperties.WriteFieldsSucceed` | spring-data-mongodb/src/main/java/org/springframework/data/document/mongodb/convert/SimpleMongoConverter.java:162-188 | write does not fail when every mappable, non-null property has a storable value; null and unmappable properties are never looked at |
| `WriterProperties.MapStoredAsDocument` | spring-data-mongodb/src/main/java/org/springframework/data/document/mongodb/convert/SimpleMongoConverter.java:222-225 | a map is stored as the fresh document its entries are written into, and fails when an entry fails |
| `WriterProperties.NonTextKeyedMapFails` | spring-data-mongodb/src/main/java/org/springframework/data/document/mongodb/convert/SimpleMongoConverter.java:284-296 | a map with a key that is not a `String` cannot be stored; when all its values are simple the failure is the class cast of the key |
| `Reader.Read` | spring-data-mongodb/src/main/java/org/springframework/data/document/mongodb/convert/SimpleMongoConverter.java:332-372 | a null document reads as null; a class that cannot be instantiated fails; success yields an instance of the class with as many properties as its fresh instance |
| `Reader.ReadFields` | spring-data-mongodb/src/main/java/org/springframework/data/document/mongodb/convert/SimpleMongoConverter.java:342-369 | succeeds exactly when every property can be read; descriptors and class name are unchanged; each property ends up holding what is read for it, or keeps its default when nothing is assigned |
| `Reader.ReadCollection` | spring-data-mongodb/src/main/java/org/springframework/data/document/mongodb/convert/SimpleMongoConverter.java:382-406 | succeeds only when every element reads; an array property yields an ArrayList and any other property the collection `collect` builds for its class, failing when none can be built; for array and list properties, with lists keeping order, there is one element per stored element, a DBObject read as the element class and any other element unchanged |
| `Reader.ElementType` | spring-data-mongodb/src/main/java/org/springframework/data/document/mongodb/convert/SimpleMongoConverter.java:392-398 | for an array property the component class; otherwise it succeeds exactly when the declared type's arguments resolve to a non-empty list, giving the first, and fails with the resolution failure or, for no arguments, with index out of bounds |
| `Reader.MapValueType` | spring-data-mongodb/src/main/java/org/springframework/data/document/mongodb/convert/SimpleMongoConverter.java:419-420 | the value class of a map property is the second resolved type argument; a type with fewer fails with index out of bounds, an unresolvable one with its resolution failure |
| `Reader.ReadElements` | spring-data-mongodb/src/main/java/org/springframework/data/document/mongodb/convert/SimpleMongoConverter.java:391-403 | succeeds exactly when every DBObject element reads as the element class; keeps length and order; DBObject elements are replaced by what is read for them, all others pass through unchanged |
| `Reader.ReadCompound` | spring-data-mongodb/src/main/java/org/springframework/data/document/mongodb/convert/SimpleMongoConverter.java:415-424 | a collection descriptor is rejected with "Collections not supported!"; a non-map descriptor reads the declared class; a map descriptor needs a second type argument (index out of bounds otherwise) and yields one entry per document entry under the same key, a simple value converted to that class and a DBObject read as it; it succeeds whenever that class resolves and every entry converts or reads |
| `Reader.ReadMap` | spring-data-mongodb/src/main/java/org/springframework/data/document/mongodb/convert/SimpleMongoConverter.java:444-457 | succeeds exactly when every value is non-null and converts (simple) or is a DBObject that reads (compound) as the map's value class; one entry per document key, in order, holding that result |
| `Reader.ReadPropertyCases` | spring-data-mongodb/src/main/java/org/springframework/data/document/mongodb/convert/SimpleMongoConverter.java:344-367 | a missing key, an unmappable descriptor or an unexpected compound shape assigns nothing; a simple stored value is assigned unchanged; a stored null fails with a null pointer |
| `RoundTrip.NestedStoredAsDocument` | spring-data-mongodb/src/main/java/org/springframework/data/document/mongodb/convert/SimpleMongoConverter.java:237-245 | a nested entity with no custom converter is stored as the document write produces for it |
| `RoundTrip.ReadBack` | spring-data-mongodb/src/main/java/org/springframework/data/document/mongodb/convert/SimpleMongoConverter.java:344-355 | a stored simple value, or a nested document that reads back as the property's entity, is assigned back to the property |
| `RoundTrip.StoredSucceeds` | spring-data-mongodb/src/main/java/org/springframework/data/document/mongodb/convert/SimpleMongoConverter.java:170-188 | a plain property is stored unchanged; a nested entity is stored as its document, which reads back to the entity |
| `RoundTrip.EntityRoundTrip` | spring-data-mongodb/src/main/java/org/springframework/data/document/mongodb/convert/SimpleMongoConverter.java:332-372 | an entity with distinct keys whose properties are plain simple values, nested entities of their declared class (at any depth), or unmappable properties at their initial value, is reconstructed exactly by read from the document write produced |
| `RoundTrip.ReadTolerant` | spring-data-mongodb/src/main/java/org/springframework/data/document/mongodb/convert/SimpleMongoConverter.java:342-369 | when each property is either copied or skipped, read succeeds; skipped properties keep their defaults and copied ones get the stored value |
| `RoundTrip.WriteSimpleArray` | spring-data-mongodb/src/main/java/org/springframework/data/document/mongodb/convert/SimpleMongoConverter.java:307-325 | an array of non-null simple elements is stored as an Object[] of the same elements |
| `RoundTrip.ReadElementsPassThrough` | spring-data-mongodb/src/main/java/org/springframework/data/document/mongodb/convert/SimpleMongoConverter.java:391-403 | elements none of which is a DBObject come out of readCollection unchanged and in order |
| `RoundTrip.ReadSimpleArray` | spring-data-mongodb/src/main/java/org/springframework/data/document/mongodb/convert/SimpleMongoConverter.java:348-350 | an Object[] of simple elements read into an array property gives an Object[] of the same elements in the same order |
| `RoundTrip.ArrayRoundTrip` | spring-data-mongodb/src/main/java/org/springframework/data/document/mongodb/convert/SimpleMongoConverter.java:348-350 | an array of simple elements declared as an array round-trips element for element, as an Object[] |
| `RoundTrip.ListRoundTrip` | spring-data-mongodb/src/main/java/org/springframework/data/document/mongodb/convert/SimpleMongoConverter.java:226-229 | a list of simple elements declared as a list class is stored as an Object[] of the same elements; when lists keep order, readCollection gives back a list of the same elements, assigned through `toArray` |
| `RoundTrip.WriteMapPlain` | spring-data-mongodb/src/main/java/org/springframework/data/document/mongodb/convert/SimpleMongoConverter.java:272-298 | a map with distinct text keys and simple values is written as a document with the same keys and values in the same order |
| `RoundTrip.MapTypeParameters` | spring-data-mongodb/src/main/java/org/springframework/data/document/mongodb/convert/SimpleMongoConverter.java:481-512 | the generic parameters of `Map<String, T>` are exactly String and T |
| `RoundTrip.ReadMapPlain` | spring-data-mongodb/src/main/java/org/springframework/data/document/mongodb/convert/SimpleMongoConverter.java:444-457 | reading a map never fails when every value is simple and of the value class, with no converter from that class to itself |
| `RoundTrip.WriteMapValue` | spring-data-mongodb/src/main/java/org/springframework/data/document/mongodb/convert/SimpleMongoConverter.java:222-225 | a map value is stored as the nested document of its entries |
| `RoundTrip.ReadMapValue` | spring-data-mongodb/src/main/java/org/springframework/data/document/mongodb/convert/SimpleMongoConverter.java:419-420 | reading that document through a `Map<String, T>` descriptor gives back the original entries |
| `RoundTrip.MapRoundTrip` | spring-data-mongodb/src/main/java/org/springframework/data/document/mongodb/convert/SimpleMongoConverter.java:415-457 | a text-keyed map of simple values of its value class reads back to the same entries in the same order |

## Left out

- Reflection and `MongoBeanWrapper` are not modelled. Descriptors are supplied as data. `setValue` stores the value it is given, so any coercion the bean wrapper applies on assignment is left out. That includes turning an enum's name back into its constant on read.
- What `write` produces for a non-entity object is the parameter `reflectWrite`. Examples are an enum constant or a list inside an array, whose bean properties come from reflection.
- `GenericConversionService` internals are not modelled: class-hierarchy lookup, the default converters and `removeConvertible`. The registry is a list of rules matched on the exact source class. The most recently added rule wins. A value already of the target class converts to itself when no rule applies.
- The `ObjectId` and `BigInteger` library functions are uninterpreted. No `ObjectId`/`BigInteger` round trip is claimed, because `toString(16)` drops leading zeros.
- `CollectionFactory` is the parameter `collect`. In the model it is applied after the elements are read, so a creation failure is reported after an element failure, not before.
- Reader.ReadCollection: element-for-element contents are promised for array properties, and for list classes (`List`, `ArrayList`, `LinkedList`) under the hypothesis `ListsKeepOrder` that a fresh list keeps what is added in order. For a set or any other collection class only the link to `collect` is stated, because a set may drop duplicates and may reorder.
- Writer.Write: requires `IdConversionIsSimple`, meaning every String-to-ObjectId conversion yields a simple value. At `SimpleMongoConverter.java:177` the converted id goes through `writeValue`, and a non-simple result would be written by `writeCompoundValue` (`SimpleMongoConverter.java:206-207`). That path is not modelled, because the converted value is not structurally smaller than the property, so recursing on it has no termination measure. The converter's own registry satisfies the requirement (`SeededIdConversionIsSimple`). The same precondition is on every writer function and lemma.
- Writer.WriteMapEntries: null map keys are not modelled. Document keys are strings, so an entry with a null key is reported as a class-cast failure. In the source, a null key with a simple value is stored under a null key (`SimpleMongoConverter.java:293`). A collection, a custom-converted value or a nested entity is likewise stored under a null key (`SimpleMongoConverter.java:323`, `:239`, `:245`). A map value goes through `writeMap` with a null `mapKey`: its entries are written into the enclosing document, which is then put into itself under a null key (`SimpleMongoConverter.java:279-283`, `:296`). That branch is not kept, because the model has no null key to reach it with and no self-containing document. `write` itself always passes a property's key, which is never null.
- When an exception escapes, the model returns a failure and drops the partly written document.
- `HashMap` iteration order is taken to be the order of the entries.
- Documents.Value: an `Atom` or `CollVal` may carry any class, including a container or `String` class for which Java has no such object (an `Atom` of a `HashMap` class, a `CollVal` of `String`). The write and read functions are defined on these, and they take the path their class tag selects. The lemmas hold for these values too, so they promise nothing false about real objects. They simply also cover values no Java program can build.
- Reader.ReadMap: a document value is not required to have distinct keys. Every document the writer builds does (`PutKeepsKeysUnique`), but a document given to `read` with a repeated key yields one map entry per occurrence, where `keySet()` would yield one.
- A `BasicDBList` read as a `DBObject` exposes the canonical decimal indices as its keys. Other forms `Integer.parseInt` accepts are not modelled.
- `convertObjectId` (both overloads) is a direct call of `Convert` and has no member of its own.
- Logging is not modelled. There is no floating-point arithmetic.
- Cyclic object graphs are not modelled. In the source they make `write` diverge. Here the datatypes are inductive, so every value graph is acyclic.
- The files `MongoLog4jAppender.java`, `MongoRepositoryConfigDefinitionParser.java`, `MongoMappingContext.java` and `SimpleMongoEntityInformationUnitTests.java` are not part of this model. They are I/O, configuration wiring, or tests of code that is not shown.

=== FILE: conversions.dfy ===
/** The conversion registry: directed conversion rules, the lookup the
    converter performs on them, the four `ObjectId` converters it seeds the
    registry with, and the registration of user-supplied converters. */
module Conversions {
  import opened Results
  import opened JavaTypes
  import opened Documents

  /** A registered conversion from values of class `source` to every target
      class `accepts` admits. A plain converter admits one target class, a
      converter factory a family of them. `apply` answers `None` when the
      conversion throws. */
  datatype Rule = Rule(source: Cls, accepts: Cls -> bool, apply: (Cls, Value) -> Option<Value>)

  /** The registry: rules in the order they were added. */
  datatype Registry = Registry(rules: seq<Rule>)

  /** The position of the most recently added rule for the pair, or -1. */
  function LastMatch(rules: seq<Rule>, src: Cls, tgt: Cls): (r: int)
    ensures -1 <= r < |rules|
    ensures r >= 0 ==> rules[r].source == src && rules[r].accepts(tgt)
    ensures forall j :: r < j < |rules| ==> !(rules[j].source == src && rules[j].accepts(tgt))
  {
    if |rules| == 0 then -1
    else if rules[|rules| - 1].source == src && rules[|rules| - 1].accepts(tgt) then |rules| - 1
    else LastMatch(rules[..|rules| - 1], src, tgt)
  }

  /** `canConvert`: a rule for the pair exists, or no conversion is needed. */
  predicate CanConvert(reg: Registry, src: Cls, tgt: Cls) {
    LastMatch(reg.rules, src, tgt) >= 0 || src == tgt
  }

  /** `convert`: null converts to null; otherwise the most recently added
      rule for the pair is applied, and a value already of the target class
      is returned as it is when no rule applies. */
  function Convert(reg: Registry, v: Value, tgt: Cls): (r: Result<Value>)
    ensures v.Null? ==> r == Success(Null)
    ensures !v.Null? && !CanConvert(reg, ClassOf(v), tgt) ==> r == Failure(ConverterNotFound)
    ensures r.Failure? ==> r.error == ConverterNotFound || r.error == ConversionFailed
  {
    if v.Null? then Success(Null)
    else
      var j := LastMatch(reg.rules, ClassOf(v), tgt);
      if j >= 0 then
        match reg.rules[j].apply(tgt, v)
        case Some(x) => Success(x)
        case None => Failure(ConversionFailed)
      else if ClassOf(v) == tgt then Success(v)
      else Failure(ConverterNotFound)
  }

  /** The external `ObjectId`/`BigInteger` library, left uninterpreted:
      `isValid` is `ObjectId.isValid`, `parse` the `ObjectId(String)`
      constructor (giving the identifier's `toString`, or `None` when it
      throws), `bigFromHex` is `new BigInteger(s, 16)` and `bigToHex` is
      `BigInteger.toString(16)`. An `ObjectId` is `Atom(ObjectIdCls, hex)`. */
  datatype Bson = Bson(
    isValid: string -> bool,
    parse: string -> Option<string>,
    bigFromHex: string -> Option<string>,
    bigToHex: string -> string)

  function OidValue(o: Option<string>): Option<Value> {
    match o
    case Some(h) => Some(Atom(ObjectIdCls, h))
    case None => None
  }

  function BigValue(o: Option<string>): Option<Value> {
    match o
    case Some(n) => Some(Atom(BigIntegerCls, n))
    case None => None
  }

  /** `ObjectIdToStringConverter`: an identifier becomes its `toString`. */
  function ObjectIdToString(): Rule {
    Rule(ObjectIdCls, t => t == StringCls,
         (t: Cls, v: Value) => if v.Atom? then Some(Str(v.repr)) else None)
  }

  /** `StringToObjectIdConverter`: the `ObjectId(String)` constructor. */
  function StringToObjectId(b: Bson): Rule {
    Rule(StringCls, t => t == ObjectIdCls,
         (t: Cls, v: Value) => if v.Str? then OidValue(b.parse(v.s)) else None)
  }

  /** `ObjectIdToBigIntegerConverter`: the identifier's text read as base 16. */
  function ObjectIdToBigInteger(b: Bson): Rule {
    Rule(ObjectIdCls, t => t == BigIntegerCls,
         (t: Cls, v: Value) => if v.Atom? then BigValue(b.bigFromHex(v.repr)) else None)
  }

  /** `BigIntegerToIdConverter`: the base-16 text of the number, parsed as an identifier. */
  function BigIntegerToId(b: Bson): Rule {
    Rule(BigIntegerCls, t => t == ObjectIdCls,
         (t: Cls, v: Value) => if v.Atom? then OidValue(b.parse(b.bigToHex(v.repr))) else None)
  }

  /** `initializeConverters`: the four identifier converters are added after
      whatever the default conversion service already holds. */
  function InitializeConverters(defaults: Registry, b: Bson): (r: Registry)
    ensures |r.rules| == |defaults.rules| + 4
    ensures r.rules[..|defaults.rules|] == defaults.rules
  {
    Registry(defaults.rules + [ObjectIdToString(), StringToObjectId(b), ObjectIdToBigInteger(b), BigIntegerToId(b)])
  }

  /** Whatever the defaults hold, the seeded registry converts identifiers
      exactly as the four identifier converters do. */
  lemma SeededConversions(defaults: Registry, b: Bson, s: string, h: string, n: string)
    ensures var reg := InitializeConverters(defaults, b);
      && CanConvert(reg, StringCls, ObjectIdCls) && CanConvert(reg, ObjectIdCls, StringCls)
      && CanConvert(reg, ObjectIdCls, BigIntegerCls) && CanConvert(reg, BigIntegerCls, ObjectIdCls)
      && Convert(reg, Str(s), ObjectIdCls)
         == (if b.parse(s).Some? then Success(Atom(ObjectIdCls, b.parse(s).value)) else Failure(ConversionFailed))
      && Convert(reg, Atom(ObjectIdCls, h), StringCls) == Success(Str(h))
      && Convert(reg, Atom(ObjectIdCls, h), BigIntegerCls)
         == (if b.bigFromHex(h).Some? then Success(Atom(BigIntegerCls, b.bigFromHex(h).value)) else Failure(ConversionFailed))
      && Convert(reg, Atom(BigIntegerCls, n), ObjectIdCls)
         == (if b.parse(b.bigToHex(n)).Some? then Success(Atom(ObjectIdCls, b.parse(b.bigToHex(n)).value)) else Failure(ConversionFailed))
  {
    var reg := InitializeConverters(defaults, b);
    var d := |defaults.rules|;
    assert reg.rules[d] == ObjectIdToString();
    assert reg.rules[d + 1] == StringToObjectId(b);
    assert reg.rules[d + 2] == ObjectIdToBigInteger(b);
    assert reg.rules[d + 3] == BigIntegerToId(b);
    assert LastMatch(reg.rules, StringCls, ObjectIdCls) == d + 1;
    assert LastMatch(reg.rules, ObjectIdCls, StringCls) == d;
    assert LastMatch(reg.rules, ObjectIdCls, BigIntegerCls) == d + 2;
    assert LastMatch(reg.rules, BigIntegerCls, ObjectIdCls) == d + 3;
  }

  /** The most recently added rule for a pair decides the conversion. */
  lemma {:induction false} LatestRuleWins(reg: Registry, rule: Rule, v: Value, tgt: Cls)
    requires !v.Null? && rule.source == ClassOf(v) && rule.accepts(tgt)
    ensures var r := Convert(Registry(reg.rules + [rule]), v, tgt);
      r == (if rule.apply(tgt, v).Some? then Success(rule.apply(tgt, v).value) else Failure(ConversionFailed))
  {
    var rules := reg.rules + [rule];
    assert LastMatch(rules, ClassOf(v), tgt) == |reg.rules|;
  }

  /** An element of the set handed to `setConverters`. */
  datatype Candidate =
    | ConverterCand(conv: Rule)
    | FactoryCand(factory: Rule)
    | BothCand(conv: Rule, factory: Rule)   // implements both interfaces
    | OtherCand                             // implements neither

  /** The rules one candidate contributes, the converter before the factory. */
  function RulesOf(c: Candidate): seq<Rule> {
    match c
    case ConverterCand(r) => [r]
    case FactoryCand(f) => [f]
    case BothCand(r, f) => [r, f]
    case OtherCand => []
  }

  /** The rules a sequence of candidates contributes, in order. */
  function AllRules(cs: seq<Candidate>): seq<Rule>
  {
    if |cs| == 0 then [] else AllRules(cs[..|cs| - 1]) + RulesOf(cs[|cs| - 1])
  }

  /** `setConverters`: adds every candidate's rules in iteration order and
      stops with an `IllegalArgumentException` at the first candidate that is
      neither a converter nor a factory; the rules of the candidates before
      it stay registered. */
  method SetConverters(reg: Registry, cs: seq<Candidate>) returns (r: Registry, failure: Option<Error>)
    ensures failure.None? <==> forall j :: 0 <= j < |cs| ==> !cs[j].OtherCand?
    ensures failure.None? ==> r.rules == reg.rules + AllRules(cs)
    ensures failure.Some? ==> failure.value.IllegalArgument? && exists n ::
      && 0 <= n < |cs| && cs[n].OtherCand?
      && (forall j :: 0 <= j < n ==> !cs[j].OtherCand?)
      && r.rules == reg.rules + AllRules(cs[..n])
  {
    r := reg;
    var i := 0;
    while i < |cs|
      invariant 0 <= i <= |cs|
      invariant forall j :: 0 <= j < i ==> !cs[j].OtherCand?
      invariant r.rules == reg.rules + AllRules(cs[..i])
    {
      var added := false;
      if cs[i].ConverterCand? || cs[i].BothCand? {
        r := Registry(r.rules + [cs[i].conv]);
        added := true;
      }
      if cs[i].FactoryCand? || cs[i].BothCand? {
        r := Registry(r.rules + [cs[i].factory]);
        added := true;
      }
      if !added {
        failure := Some(IllegalArgument("Given set contains element that is neither Converter nor ConverterFactory!"));
        return;
      }
      assert cs[..i + 1][..i] == cs[..i];
      i := i + 1;
    }
    assert cs[..i] == cs;
    failure := None;
  }
}

=== FILE: documents.dfy ===
/** Runtime values, entities with their property descriptors, and the
    ordered string-keyed documents the converter produces and consumes. */
module Documents {
  import opened Results
  import opened JavaTypes

  /** Mapping metadata of one bean property, as supplied by the bean wrapper. */
  datatype Descriptor = Descriptor(
    name: string,          // the property name
    key: string,           // the document key the property maps to
    mappable: bool,
    isEnum: bool,
    isIdProperty: bool,
    isOfIdType: bool,
    isCollection: bool,
    isMap: bool,
    propertyType: Cls,     // the declared class of the property
    typeToSet: Ty)         // the declared generic type of the property

  /** A property of an entity together with its current value. */
  datatype Field = Field(desc: Descriptor, value: Value)

  /** An instance of a mapped class: its class name and its properties in
      the order the bean wrapper lists them. */
  datatype Entity = Entity(typeName: string, fields: seq<Field>)

  /** A runtime value. Inductive, so every value graph is acyclic. */
  datatype Value =
    | Null
    | Str(s: string)                              // a `java.lang.String`
    | Atom(cls: Cls, repr: string)                // any other leaf object of class `cls`
    | EnumConst(enumType: string, constName: string)
    | Obj(entity: Entity)                         // a mapped entity
    | MapVal(entries: seq<(Value, Value)>)        // a `java.util.Map`
    | CollVal(collCls: Cls, elems: seq<Value>)    // a `java.util.Collection` of class `collCls`
    | ArrVal(component: Cls, elems: seq<Value>)   // an array with the given component class
    | Doc(doc: Document)                          // a `BasicDBObject`, itself a `Map`
    | DList(elems: seq<Value>)                    // a `BasicDBList`, itself a `Collection`

  /** A `DBObject`: keys in insertion order. A document built by `Put`
      from the empty one holds each key at most once (`UniqueKeys`). */
  datatype Document = Document(entries: seq<(string, Value)>)

  const EmptyDocument := Document([])

  /** The runtime class of a non-null value. */
  function ClassOf(v: Value): (r: Cls)
    requires !v.Null?
  {
    match v
    case Str(_) => StringCls
    case Atom(c, _) => c
    case EnumConst(t, _) => Named(t)
    case Obj(e) => Named(e.typeName)
    case MapVal(_) => HashMapCls
    case CollVal(c, _) => c
    case ArrVal(comp, _) => ArrayCls(comp)
    case Doc(_) => BasicDBObjectCls
    case DList(_) => BasicDBListCls
  }

  /** `isSimpleType(value.getClass())`: the null case is the caller's NPE. */
  predicate IsSimpleValue(v: Value)
    requires !v.Null?
  {
    IsSimpleType(Some(ClassOf(v)))
  }

  /** Whether the value is a `DBObject`. */
  predicate IsDBObject(v: Value) {
    v.Doc? || v.DList?
  }

  function Keys(d: Document): (r: set<string>)
    ensures forall i :: 0 <= i < |d.entries| ==> d.entries[i].0 in r
    ensures forall k :: k in r ==> exists i :: 0 <= i < |d.entries| && d.entries[i].0 == k
  {
    set i | 0 <= i < |d.entries| :: d.entries[i].0
  }

  /** The position of the first entry with key `k`, or -1 when there is none. */
  function IndexOf(entries: seq<(string, Value)>, k: string): (r: int)
    ensures -1 <= r < |entries|
    ensures r >= 0 ==> entries[r].0 == k && forall j :: 0 <= j < r ==> entries[j].0 != k
    ensures r < 0 ==> forall j :: 0 <= j < |entries| ==> entries[j].0 != k
  {
    if |entries| == 0 then -1
    else if entries[0].0 == k then 0
    else
      var t := IndexOf(entries[1..], k);
      if t < 0 then -1 else t + 1
  }

  predicate ContainsKey(d: Document, k: string) {
    IndexOf(d.entries, k) >= 0
  }

  /** The value stored under `k`, or null when absent. */
  function Get(d: Document, k: string): (r: Value)
  {
    var i := IndexOf(d.entries, k);
    if i < 0 then Null else d.entries[i].1
  }

  /** `put`: replaces the value of an existing key in place, otherwise
      appends the pair. */
  function Put(d: Document, k: string, v: Value): (r: Document)
    ensures ContainsKey(r, k) && Get(r, k) == v
    ensures forall k' :: k' != k ==> ContainsKey(r, k') == ContainsKey(d, k') && Get(r, k') == Get(d, k')
    ensures Keys(r) == Keys(d) + {k}
    ensures ContainsKey(d, k) ==> |r.entries| == |d.entries|
    ensures ContainsKey(d, k) ==> forall j :: 0 <= j < |d.entries| ==>
      r.entries[j].0 == d.entries[j].0 && (d.entries[j].0 != k ==> r.entries[j] == d.entries[j])
    ensures !ContainsKey(d, k) ==> r.entries == d.entries + [(k, v)]
  {
    var i := IndexOf(d.entries, k);
    if i < 0 then
      PutAppends(d, k, v);
      Document(d.entries + [(k, v)])
    else
      PutReplaces(d, k, v, i);
      Document(d.entries[i := (k, v)])
  }

  /** Appending a new key leaves every other key where it was. */
  lemma PutAppends(d: Document, k: string, v: Value)
    requires IndexOf(d.entries, k) < 0
    ensures IndexOf(d.entries + [(k, v)], k) == |d.entries|
    ensures forall k' :: k' != k ==> IndexOf(d.entries + [(k, v)], k') == IndexOf(d.entries, k')
    ensures Keys(Document(d.entries + [(k, v)])) == Keys(d) + {k}
  {
    var r := Document(d.entries + [(k, v)]);
    IndexOfAppend(d.entries, k, v);
    assert r.entries[|d.entries|].0 == k;
    forall x | x in Keys(r) ensures x in Keys(d) + {k} {
      var j :| 0 <= j < |r.entries| && r.entries[j].0 == x;
      if j < |d.entries| { assert d.entries[j].0 == x; }
    }
    forall x | x in Keys(d) ensures x in Keys(r) {
      var j :| 0 <= j < |d.entries| && d.entries[j].0 == x;
      assert r.entries[j].0 == x;
    }
  }

  /** Replacing the value at the key's position moves no key. */
  lemma PutReplaces(d: Document, k: string, v: Value, i: int)
    requires i == IndexOf(d.entries, k) && i >= 0
    ensures forall j :: 0 <= j < |d.entries| ==>
      d.entries[i := (k, v)][j].0 == d.entries[j].0 && (d.entries[j].0 != k ==> d.entries[i := (k, v)][j] == d.entries[j])
    ensures forall k' :: IndexOf(d.entries[i := (k, v)], k') == IndexOf(d.entries, k')
    ensures Keys(Document(d.entries[i := (k, v)])) == Keys(d)
  {
    var r := d.entries[i := (k, v)];
    forall k' ensures IndexOf(r, k') == IndexOf(d.entries, k') {
      IndexOfSameKeys(d.entries, r, k');
    }
    forall j | 0 <= j < |d.entries| ensures d.entries[j].0 == r[j].0 { }
  }

  /** Appending a pair with key `k'` does not move an earlier key. */
  lemma IndexOfAppend(entries: seq<(string, Value)>, k: string, v: Value)
    ensures IndexOf(entries + [(k, v)], k) == (if IndexOf(entries, k) >= 0 then IndexOf(entries, k) else |entries|)
    ensures forall k' :: k' != k ==> IndexOf(entries + [(k, v)], k') == IndexOf(entries, k')
  {
    var e' := entries + [(k, v)];
    forall k' ensures IndexOf(e', k') == (if IndexOf(entries, k') >= 0 then IndexOf(entries, k') else if k' == k then |entries| else -1) {
      var a := IndexOf(e', k');
      var b := IndexOf(entries, k');
      if b >= 0 {
        assert e'[b].0 == k';
      } else if k' == k {
        assert e'[|entries|].0 == k;
      }
    }
  }

  /** Two entry lists with the same keys in the same places index alike. */
  lemma IndexOfSameKeys(a: seq<(string, Value)>, b: seq<(string, Value)>, k: string)
    requires |a| == |b|
    requires forall j :: 0 <= j < |a| ==> a[j].0 == b[j].0
    ensures IndexOf(a, k) == IndexOf(b, k)
  {
    var x := IndexOf(a, k);
    var y := IndexOf(b, k);
    if x >= 0 { assert b[x].0 == k; }
    if y >= 0 { assert a[y].0 == k; }
  }

  /** No key occurs twice, as in a `DBObject`'s key set. */
  predicate UniqueKeys(d: Document) {
    forall i, j :: 0 <= i < j < |d.entries| ==> d.entries[i].0 != d.entries[j].0
  }

  /** `Put` never introduces a second entry for a key. */
  lemma PutKeepsKeysUnique(d: Document, k: string, v: Value)
    requires UniqueKeys(d)
    ensures UniqueKeys(Put(d, k, v))
  {
    var r := Put(d, k, v);
    if !ContainsKey(d, k) {
      forall i, j | 0 <= i < j < |r.entries| ensures r.entries[i].0 != r.entries[j].0 {
        if j == |d.entries| {
          assert r.entries[i] == d.entries[i];
        }
      }
    }
  }
}

=== FILE: java_types.dfy ===
/** Runtime classes and reflective types as the converter sees them, the
    simple-type classification, and generic-parameter resolution. */
module JavaTypes {
  import opened Results

  /** A runtime `Class`: a named class (primitive, boxed or user type) or an
      array class with its component class. */
  datatype Cls = Named(name: string) | ArrayCls(component: Cls)

  /** A `java.lang.reflect.Type`. `OtherTy` stands for every kind the
      resolver does not recognise (wildcards, for instance). */
  datatype Ty =
    | ClassTy(cls: Cls)
    | ParamTy(raw: Cls, args: seq<Ty>)
    | GenericArrayTy(component: Ty)
    | TypeVarTy(name: string)
    | OtherTy

  const ObjectCls: Cls := Named("java.lang.Object")
  const StringCls: Cls := Named("java.lang.String")
  const NumberCls: Cls := Named("java.lang.Number")
  const DateCls: Cls := Named("java.util.Date")
  const ObjectIdCls: Cls := Named("org.bson.types.ObjectId")
  const BigIntegerCls: Cls := Named("java.math.BigInteger")
  const DBObjectCls: Cls := Named("com.mongodb.DBObject")
  const BasicDBObjectCls: Cls := Named("com.mongodb.BasicDBObject")
  const BasicDBListCls: Cls := Named("com.mongodb.BasicDBList")
  const ArrayListCls: Cls := Named("java.util.ArrayList")
  const HashMapCls: Cls := Named("java.util.HashMap")

  /** The list classes: `CollectionFactory` creates an ordered list for each. */
  predicate IsListClass(c: Cls) {
    c in {Named("java.util.List"), ArrayListCls, Named("java.util.LinkedList")}
  }

  /** The names of the classes a document can hold directly, as collected
      once when the converter class is loaded. */
  const SimpleTypeNames: set<string> := {
    "boolean", "long", "short", "int", "byte", "float", "double", "char",
    "java.lang.Boolean", "java.lang.Long", "java.lang.Short", "java.lang.Integer",
    "java.lang.Byte", "java.lang.Float", "java.lang.Double", "java.lang.Character",
    "java.lang.String", "java.util.Date", "java.util.Locale", "java.lang.Class",
    "com.mongodb.DBRef", "java.util.regex.Pattern", "org.bson.types.CodeWScope",
    "org.bson.types.ObjectId", "java.lang.Enum"
  }

  /** Whether a (possibly null) class is stored without decomposition: an
      array is simple exactly when its component class is. */
  predicate IsSimpleType(c: Option<Cls>) {
    c.Some? && IsSimpleClass(c.value)
  }

  /** `IsSimpleType` on a non-null class. */
  predicate IsSimpleClass(c: Cls) {
    match c
    case Named(n) => n in SimpleTypeNames
    case ArrayCls(comp) => IsSimpleClass(comp)
  }

  /** The class left after stripping every array layer. */
  function ElementClass(c: Cls): (r: Cls)
    ensures r.Named?
  {
    match c
    case Named(_) => c
    case ArrayCls(comp) => ElementClass(comp)
  }

  /** The class of arrays nested `depth` deep around `c`. */
  function ArrayOfDepth(c: Cls, depth: nat): (r: Cls)
    ensures depth > 0 ==> r.ArrayCls?
  {
    if depth == 0 then c else ArrayCls(ArrayOfDepth(c, depth - 1))
  }

  /** Resolves one actual type argument to a class, as the body of the loop
      in `getGenericParameters` does. */
  function ResolveArgument(t: Ty): (r: Result<Cls>)
    ensures t.ClassTy? ==> r == Success(t.cls)
    ensures t.ParamTy? ==> r == Success(t.raw)
    ensures t.GenericArrayTy? && t.component.ClassTy? ==> r == Success(ArrayCls(t.component.cls))
    ensures t.GenericArrayTy? && !t.component.ClassTy? ==> r == Failure(ClassCast)
    ensures t.TypeVarTy? || t.OtherTy? ==> r.Failure? && r.error.CannotMap?
  {
    match t
    case GenericArrayTy(comp) =>
      // the generic component type is cast to `Class`
      if comp.ClassTy? then Success(ArrayCls(comp.cls)) else Failure(ClassCast)
    case ParamTy(raw, _) => Success(raw)
    case TypeVarTy(n) => Failure(CannotMap(n))
    case ClassTy(c) => Success(c)
    case OtherTy => Failure(CannotMap("unrecognised type"))
  }

  /** Resolves the arguments `args[i..]` in order, stopping at the first
      that cannot be resolved. */
  function ResolveArguments(args: seq<Ty>, i: nat): (r: Result<seq<Cls>>)
    requires i <= |args|
    decreases |args| - i
    ensures r.Success? <==> forall j :: i <= j < |args| ==> ResolveArgument(args[j]).Success?
    ensures r.Success? ==> |r.value| == |args| - i
    ensures r.Success? ==> forall j :: i <= j < |args| ==> r.value[j - i] == ResolveArgument(args[j]).value
    ensures r.Failure? ==> exists j :: i <= j < |args| && ResolveArgument(args[j]) == Failure(r.error)
  {
    if i == |args| then Success([])
    else
      var head :- ResolveArgument(args[i]);
      var tail :- ResolveArguments(args, i + 1);
      Success([head] + tail)
  }

  /** The concrete classes of a type's actual type arguments; a type that is
      not parameterized has none. */
  function GetGenericParameters(t: Ty): (r: Result<seq<Cls>>)
    ensures !t.ParamTy? ==> r == Success([])
    ensures t.ParamTy? ==> (r.Success? <==> forall j :: 0 <= j < |t.args| ==> ResolveArgument(t.args[j]).Success?)
    ensures t.ParamTy? && r.Success? ==> |r.value| == |t.args|
    ensures t.ParamTy? && r.Success? ==> forall j :: 0 <= j < |t.args| ==> r.value[j] == ResolveArgument(t.args[j]).value
    ensures t.ParamTy? && (exists j :: 0 <= j < |t.args| && t.args[j].TypeVarTy?) ==> r.Failure?
    ensures t.ParamTy? && (forall j :: 0 <= j < |t.args| ==> !t.args[j].TypeVarTy? && !t.args[j].OtherTy?)
            && (exists j :: 0 <= j < |t.args| && t.args[j].GenericArrayTy? && !t.args[j].component.ClassTy?)
            ==> r == Failure(ClassCast)
  {
    if t.ParamTy? then ResolveArguments(t.args, 0) else Success([])
  }

  /** An array class is simple exactly when the class it is built from is. */
  lemma {:induction false} ArrayOfDepthSimple(c: Cls, depth: nat)
    ensures IsSimpleType(Some(ArrayOfDepth(c, depth))) == IsSimpleType(Some(c))
  {
    if depth > 0 {
      ArrayOfDepthSimple(c, depth - 1);
    }
  }

  /** Simplicity depends only on the class under all array layers. */
  lemma {:induction false} SimpleIffElementNameListed(c: Cls)
    ensures IsSimpleType(Some(c)) <==> ElementClass(c).name in SimpleTypeNames
  {
    match c
    case Named(_) =>
    case ArrayCls(comp) => SimpleIffElementNameListed(comp);
  }

  /** The container classes the converter decomposes are never simple, and
      neither is null. */
  lemma ContainersAreCompound()
    ensures !IsSimpleType(None)
    ensures !IsSimpleType(Some(HashMapCls)) && !IsSimpleType(Some(ArrayListCls))
    ensures !IsSimpleType(Some(BasicDBObjectCls)) && !IsSimpleType(Some(BasicDBListCls))
    ensures !IsSimpleType(Some(ArrayCls(ObjectCls)))
    ensures IsSimpleType(Some(StringCls)) && IsSimpleType(Some(ObjectIdCls))
    ensures !IsSimpleType(Some(BigIntegerCls))
  {
  }
}

=== FILE: reader.dfy ===
/** The reading half of the converter: a document becomes an entity. */
module Reader {
  import opened Results
  import opened JavaTypes
  import opened Documents
  import opened Conversions

  /** What the reader depends on but does not define: the conversion
      registry; `instantiate`, the freshly constructed instance of each
      instantiable class (its properties at their defaults); and `collect`,
      a fresh collection of the given class after adding the elements in
      order (`None` when the class cannot be created). */
  datatype ReadEnv = ReadEnv(
    reg: Registry,
    instantiate: map<string, Entity>,
    collect: (Cls, seq<Value>) -> Option<seq<Value>>)

  /** Decimal rendering of a list index, the keys a `BasicDBList` exposes. */
  function DecimalString(n: nat): string {
    if n < 10 then ["0123456789"[n]] else DecimalString(n / 10) + ["0123456789"[n % 10]]
  }

  /** The first index whose decimal rendering is `key`, or -1. */
  function ListIndex(key: string, n: nat, i: nat): (r: int)
    requires i <= n
    decreases n - i
    ensures -1 <= r < n
    ensures r >= 0 ==> i <= r && DecimalString(r) == key
    ensures r < 0 ==> forall j :: i <= j < n ==> DecimalString(j) != key
  {
    if i == n then -1 else if DecimalString(i) == key then i else ListIndex(key, n, i + 1)
  }

  /** `containsField` on a `DBObject`. */
  predicate ContainsField(src: Value, key: string)
    requires IsDBObject(src)
  {
    if src.Doc? then ContainsKey(src.doc, key) else ListIndex(key, |src.elems|, 0) >= 0
  }

  /** `get` on a `DBObject`, for a field it contains. */
  function FieldValue(src: Value, key: string): (r: Value)
    requires IsDBObject(src) && ContainsField(src, key)
    ensures src.Doc? ==> r == Get(src.doc, key)
  {
    if src.Doc? then Get(src.doc, key) else src.elems[ListIndex(key, |src.elems|, 0)]
  }

  lemma FieldValueSmaller(src: Value, key: string)
    requires IsDBObject(src) && ContainsField(src, key)
    ensures FieldValue(src, key) < src
  {
    if src.Doc? {
      var i := IndexOf(src.doc.entries, key);
      assert src.doc.entries[i] in src.doc.entries;
    } else {
      assert FieldValue(src, key) in src.elems;
    }
  }

  /** A property `read` leaves at the value the fresh instance gave it: its
      key is absent, it is not mappable, or the stored value is compound but
      neither an array, a `BasicDBList` nor a `DBObject`. */
  predicate LeftAtDefault(src: Value, d: Descriptor)
    requires IsDBObject(src)
  {
    || !ContainsField(src, d.key)
    || !d.mappable
    || (var v := FieldValue(src, d.key);
        !v.Null? && !IsSimpleValue(v) && !v.ArrVal? && !v.DList? && !v.Doc?)
  }

  /** A property `read` assigns the stored value to unchanged. */
  predicate CopiedDirectly(src: Value, d: Descriptor)
    requires IsDBObject(src)
  {
    && ContainsField(src, d.key)
    && d.mappable
    && var v := FieldValue(src, d.key);
       !v.Null? && IsSimpleValue(v)
  }

  function SetField(e: Entity, i: nat, v: Value): (r: Entity)
    requires i < |e.fields|
  {
    Entity(e.typeName, e.fields[i := Field(e.fields[i].desc, v)])
  }

  /** `read(clazz, source)`: null for a null document; otherwise a fresh
      instance of `clazz` whose properties are filled from the document. */
  function Read(env: ReadEnv, clazz: Cls, src: Value): (r: Result<Value>)
    requires src.Null? || IsDBObject(src)
    decreases src, 3, 0
    ensures src.Null? ==> r == Success(Null)
    ensures !src.Null? && !(clazz.Named? && clazz.name in env.instantiate) ==> r.Failure? && r.error.Instantiation?
    ensures r.Success? && !src.Null? ==>
              && clazz.Named? && clazz.name in env.instantiate && r.value.Obj?
              && r.value.entity.typeName == env.instantiate[clazz.name].typeName
              && |r.value.entity.fields| == |env.instantiate[clazz.name].fields|
  {
    if src.Null? then Success(Null)
    else if !clazz.Named? then Failure(Instantiation("array class"))
    else if clazz.name !in env.instantiate then Failure(Instantiation(clazz.name))
    else
      var e :- ReadFields(env, src, env.instantiate[clazz.name], 0);
      Success(Obj(e))
  }

  /** What `read` assigns to the property with descriptor `d`: `None`
      when it leaves the property at its default. */
  function ReadProperty(env: ReadEnv, src: Value, d: Descriptor): (r: Result<Option<Value>>)
    requires IsDBObject(src)
    decreases src, 1, 0
  {
    if !ContainsField(src, d.key) || !d.mappable then Success(None)
    else
      var v := FieldValue(src, d.key);
      FieldValueSmaller(src, d.key);
      if v.Null? then Failure(NullPointer)
      else if IsSimpleValue(v) then Success(Some(v))
      else if v.ArrVal? then
        var c :- ReadCollection(env, d, v);
        Success(Some(ArrVal(ObjectCls, c.elems)))
      else if v.DList? then
        var c :- ReadCollection(env, d, v);
        Success(Some(c))
      else if v.Doc? then
        var x :- ReadCompound(env, d, v);
        Success(Some(x))
      else Success(None)
  }

  /** The value a property holds after `read`: the assigned one, if any. */
  function Assigned(a: Option<Value>, default: Value): Value {
    if a.Some? then a.value else default
  }

  /** The loop of `read` over the descriptors from `i` on. */
  function ReadFields(env: ReadEnv, src: Value, e: Entity, i: nat): (r: Result<Entity>)
    requires IsDBObject(src)
    requires i <= |e.fields|
    decreases src, 2, |e.fields| - i
    ensures r.Success? <==> forall j :: i <= j < |e.fields| ==> ReadProperty(env, src, e.fields[j].desc).Success?
    ensures r.Success? ==> r.value.typeName == e.typeName && |r.value.fields| == |e.fields|
    ensures r.Success? ==> forall j :: 0 <= j < |e.fields| ==> r.value.fields[j].desc == e.fields[j].desc
    ensures r.Success? ==> forall j :: 0 <= j < i ==> r.value.fields[j] == e.fields[j]
    ensures r.Success? ==> forall j :: i <= j < |e.fields| ==>
      r.value.fields[j].value == Assigned(ReadProperty(env, src, e.fields[j].desc).value, e.fields[j].value)
  {
    if i == |e.fields| then Success(e)
    else
      var a :- ReadProperty(env, src, e.fields[i].desc);
      var e' := if a.Some? then SetField(e, i, a.value) else e;
      assert forall j :: 0 <= j < |e.fields| ==> e'.fields[j].desc == e.fields[j].desc;
      assert forall j :: 0 <= j < |e.fields| && j != i ==> e'.fields[j] == e.fields[j];
      assert e'.fields[i].value == Assigned(a, e.fields[i].value);
      ReadFields(env, src, e', i + 1)
  }

  /** `collect` builds a list for every list class, and adding elements to
      a fresh list keeps all of them in order. */
  ghost predicate ListsKeepOrder(env: ReadEnv) {
    forall c: Cls, xs: seq<Value> :: IsListClass(c) ==> env.collect(c, xs) == Some(xs)
  }

  /** The collection properties whose read value holds one element per
      stored element: arrays always, lists when `collect` keeps order. */
  ghost predicate KeepsElements(env: ReadEnv, d: Descriptor) {
    d.propertyType.ArrayCls? || (IsListClass(d.propertyType) && ListsKeepOrder(env))
  }

  /** `readCollection`: the elements read one by one, gathered in an
      `ArrayList` for an array property and otherwise in a fresh collection
      of the declared class. */
  function ReadCollection(env: ReadEnv, d: Descriptor, values: Value): (r: Result<Value>)
    requires values.ArrVal? || values.DList?
    decreases values, 4, 0
    ensures r.Success? ==> r.value.CollVal? && ReadElements(env, d, values, 0).Success?
    ensures d.propertyType.ArrayCls? && r.Success? ==> r.value.collCls == ArrayListCls
    ensures !d.propertyType.ArrayCls? && r.Success? ==>
      && r.value.collCls == d.propertyType
      && env.collect(d.propertyType, ReadElements(env, d, values, 0).value) == Some(r.value.elems)
    ensures (!d.propertyType.ArrayCls? && ReadElements(env, d, values, 0).Success?
             && env.collect(d.propertyType, ReadElements(env, d, values, 0).value).None?) ==>
      r == Failure(IllegalArgument("Unsupported Collection interface"))
    ensures KeepsElements(env, d) ==> (r.Success? <==> ReadElements(env, d, values, 0).Success?)
    ensures KeepsElements(env, d) && r.Success? ==>
      && |r.value.elems| == |values.elems|
      && (forall j :: 0 <= j < |values.elems| && !IsDBObject(values.elems[j]) ==>
            r.value.elems[j] == values.elems[j])
      && (forall j :: 0 <= j < |values.elems| && IsDBObject(values.elems[j]) ==>
            ElementType(d).Success? && Read(env, ElementType(d).value, values.elems[j]) == Success(r.value.elems[j]))
  {
    var xs :- ReadElements(env, d, values, 0);
    if d.propertyType.ArrayCls? then Success(CollVal(ArrayListCls, xs))
    else match env.collect(d.propertyType, xs)
      case Some(ys) => Success(CollVal(d.propertyType, ys))
      case None => Failure(IllegalArgument("Unsupported Collection interface"))
  }

  /** The class a nested document inside a collection property is read as:
      the component class of an array property, otherwise the first type
      argument of the declared type. */
  function ElementType(d: Descriptor): (r: Result<Cls>)
    ensures d.propertyType.ArrayCls? ==> r == Success(d.propertyType.component)
    ensures !d.propertyType.ArrayCls? ==>
      (r.Success? <==> GetGenericParameters(d.typeToSet).Success? && |GetGenericParameters(d.typeToSet).value| > 0)
    ensures !d.propertyType.ArrayCls? && r.Success? ==> r.value == GetGenericParameters(d.typeToSet).value[0]
    ensures !d.propertyType.ArrayCls? && GetGenericParameters(d.typeToSet).Failure? ==>
      r == Failure(GetGenericParameters(d.typeToSet).error)
    ensures (!d.propertyType.ArrayCls? && GetGenericParameters(d.typeToSet).Success?
             && |GetGenericParameters(d.typeToSet).value| == 0) ==> r == Failure(IndexOutOfBounds)
  {
    if d.propertyType.ArrayCls? then Success(d.propertyType.component)
    else
      var ps :- GetGenericParameters(d.typeToSet);
      if |ps| == 0 then Failure(IndexOutOfBounds) else Success(ps[0])
  }

  /** The loop of `readCollection` from element `i` on: a `DBObject` is
      read as an entity of the element type, every other element is kept. */
  function ReadElements(env: ReadEnv, d: Descriptor, values: Value, i: nat): (r: Result<seq<Value>>)
    requires values.ArrVal? || values.DList?
    requires i <= |values.elems|
    decreases values, 3, |values.elems| - i
    ensures r.Success? ==> |r.value| == |values.elems| - i
    ensures r.Success? ==> forall j :: i <= j < |values.elems| && !IsDBObject(values.elems[j]) ==>
      r.value[j - i] == values.elems[j]
    ensures r.Success? ==> forall j :: i <= j < |values.elems| && IsDBObject(values.elems[j]) ==>
      ElementType(d).Success? && Read(env, ElementType(d).value, values.elems[j]) == Success(r.value[j - i])
    ensures (forall j :: i <= j < |values.elems| && IsDBObject(values.elems[j]) ==>
               ElementType(d).Success? && Read(env, ElementType(d).value, values.elems[j]).Success?) ==> r.Success?
  {
    if i == |values.elems| then Success([])
    else
      var o := values.elems[i];
      assert o < values by { assert o in values.elems; }
      var head :- (if IsDBObject(o) then
                     var t :- ElementType(d);
                     Read(env, t, o)
                   else Success(o));
      var tail :- ReadElements(env, d, values, i + 1);
      Success([head] + tail)
  }

  /** The class the values of a map property are read as: the second type
      argument of the declared type (`get(1)` fails when there is none). */
  function MapValueType(d: Descriptor): (r: Result<Cls>)
    ensures r.Success? <==>
      GetGenericParameters(d.typeToSet).Success? && |GetGenericParameters(d.typeToSet).value| >= 2
    ensures r.Success? ==> r.value == GetGenericParameters(d.typeToSet).value[1]
    ensures GetGenericParameters(d.typeToSet).Failure? ==> r == Failure(GetGenericParameters(d.typeToSet).error)
    ensures GetGenericParameters(d.typeToSet).Success? && |GetGenericParameters(d.typeToSet).value| < 2 ==>
      r == Failure(IndexOutOfBounds)
  {
    var ps :- GetGenericParameters(d.typeToSet);
    if |ps| < 2 then Failure(IndexOutOfBounds) else Success(ps[1])
  }

  /** `readCompoundValue`: a nested document is read as a map or as a
      nested entity; a collection property is rejected. */
  function ReadCompound(env: ReadEnv, d: Descriptor, dbo: Value): (r: Result<Value>)
    requires dbo.Doc?
    decreases dbo, 4, 0
    ensures d.isCollection ==> r == Failure(IllegalArgument("Collections not supported!"))
    ensures !d.isCollection && !d.isMap ==> r == Read(env, d.propertyType, dbo)
    ensures !d.isCollection && d.isMap && MapValueType(d).Failure? ==> r == Failure(MapValueType(d).error)
    ensures (!d.isCollection && d.isMap && GetGenericParameters(d.typeToSet).Success?
             && |GetGenericParameters(d.typeToSet).value| < 2) ==> r == Failure(IndexOutOfBounds)
    ensures !d.isCollection && d.isMap && r.Success? ==>
      && GetGenericParameters(d.typeToSet).Success? && |GetGenericParameters(d.typeToSet).value| >= 2
      && r.value.MapVal? && |r.value.entries| == |dbo.doc.entries|
      && forall j :: 0 <= j < |dbo.doc.entries| ==>
           && r.value.entries[j].0 == Str(dbo.doc.entries[j].0)
           && var v := dbo.doc.entries[j].1;
              var t := GetGenericParameters(d.typeToSet).value[1];
              && !v.Null?
              && (IsSimpleValue(v) ==> Convert(env.reg, v, t) == Success(r.value.entries[j].1))
              && (!IsSimpleValue(v) ==> IsDBObject(v) && Read(env, t, v) == Success(r.value.entries[j].1))
    ensures (!d.isCollection && d.isMap && MapValueType(d).Success?
             && forall j :: 0 <= j < |dbo.doc.entries| ==>
                  var v := dbo.doc.entries[j].1;
                  !v.Null? && (IsSimpleValue(v) ==> Convert(env.reg, v, MapValueType(d).value).Success?)
                           && (!IsSimpleValue(v) ==> IsDBObject(v) && Read(env, MapValueType(d).value, v).Success?))
            ==> r.Success?
  {
    if d.isCollection then Failure(IllegalArgument("Collections not supported!"))
    else if d.isMap then
      var t :- MapValueType(d);
      var es :- ReadMap(env, dbo, t, 0);
      Success(MapVal(es))
    else Read(env, d.propertyType, dbo)
  }

  /** The loop of `readMap` over the document's entries from `i` on: a
      compound value is read as an entity of the map's value class, a simple
      one converted to it. */
  function ReadMap(env: ReadEnv, dbo: Value, target: Cls, i: nat): (r: Result<seq<(Value, Value)>>)
    requires dbo.Doc?
    requires i <= |dbo.doc.entries|
    decreases dbo, 1, |dbo.doc.entries| - i
    ensures r.Success? ==> |r.value| == |dbo.doc.entries| - i
    ensures r.Success? ==> forall j :: i <= j < |dbo.doc.entries| ==> r.value[j - i].0 == Str(dbo.doc.entries[j].0)
    ensures r.Success? ==> forall j :: i <= j < |dbo.doc.entries| ==>
      var v := dbo.doc.entries[j].1;
      !v.Null? && (IsSimpleValue(v) ==> Convert(env.reg, v, target) == Success(r.value[j - i].1))
               && (!IsSimpleValue(v) ==> IsDBObject(v) && Read(env, target, v) == Success(r.value[j - i].1))
    ensures (forall j :: i <= j < |dbo.doc.entries| ==>
               var v := dbo.doc.entries[j].1;
               !v.Null? && (IsSimpleValue(v) ==> Convert(env.reg, v, target).Success?)
                        && (!IsSimpleValue(v) ==> IsDBObject(v) && Read(env, target, v).Success?)) ==> r.Success?
  {
    if i == |dbo.doc.entries| then Success([])
    else
      var (k, v) := dbo.doc.entries[i];
      assert v < dbo by { assert dbo.doc.entries[i] in dbo.doc.entries; }
      var x :- (if v.Null? then Failure(NullPointer)
                else if !IsSimpleValue(v) then
                  if IsDBObject(v) then Read(env, target, v) else Failure(ClassCast)
                else Convert(env.reg, v, target));
      var rest :- ReadMap(env, dbo, target, i + 1);
      Success([(Str(k), x)] + rest)
  }

  /** The shapes `read` skips, copies or rejects, property by property. */
  lemma ReadPropertyCases(env: ReadEnv, src: Value, d: Descriptor)
    requires IsDBObject(src)
    ensures LeftAtDefault(src, d) ==> ReadProperty(env, src, d) == Success(None)
    ensures CopiedDirectly(src, d) ==> ReadProperty(env, src, d) == Success(Some(FieldValue(src, d.key)))
    ensures ContainsField(src, d.key) && d.mappable && FieldValue(src, d.key).Null? ==>
      ReadProperty(env, src, d) == Failure(NullPointer)
  {
  }
}

=== FILE: results.dfy ===
/** Outcomes of the mapper's operations: a value, or the exception the
    converter would have thrown instead. */
module Results {

  /** The exceptions that can escape from the converter. */
  datatype Error =
    | NullPointer                     // `getClass()` on a null value
    | ClassCast                       // a cast the value's runtime class does not allow
    | IllegalArgument(msg: string)    // `Assert` failures and rejected configuration
    | IndexOutOfBounds                // `List.get` past the end
    | CannotMap(what: string)         // an unresolvable generic type argument
    | ConversionFailed                // a registered converter rejected its input
    | ConverterNotFound               // no converter for the requested pair
    | Instantiation(className: string)  // the class has no usable no-argument constructor

  /** An optional value: a possibly null reference, or a lookup that may
      find nothing. */
  datatype Option<+T> = None | Some(value: T)

  datatype Result<+T> = Success(value: T) | Failure(error: Error) {
    predicate IsFailure() { Failure? }

    function PropagateFailure<U>(): Result<U>
      requires Failure?
    {
      Failure(error)
    }

    function Extract(): T
      requires Success?
    {
      value
    }
  }
}

=== FILE: round_trip.dfy ===
/** Writing an entity and reading the document back. */
module RoundTrip {
  import opened Results
  import opened JavaTypes
  import opened Documents
  import opened Conversions
  import opened Writer
  import opened Reader
  import opened WriterProperties

  /** A property `write` stores and `read` copies back as it is: mappable,
      holding a non-null simple value, neither an enum nor an id to coerce. */
  predicate PlainField(f: Field) {
    && f.desc.mappable && !f.value.Null? && IsSimpleValue(f.value)
    && !f.desc.isEnum && !(f.desc.isIdProperty && f.desc.isOfIdType)
  }

  /** A property holding a nested entity of its declared class, which no
      custom converter claims and which itself round-trips. */
  predicate NestedField(wenv: WriteEnv, renv: ReadEnv, f: Field)
    decreases f, 0
  {
    && f.desc.mappable && !f.desc.isEnum && !(f.desc.isIdProperty && f.desc.isOfIdType)
    && !f.desc.isCollection && !f.desc.isMap
    && f.value.Obj?
    && f.desc.propertyType == Named(f.value.entity.typeName)
    && f.value.entity.typeName !in SimpleTypeNames
    && GetCustomTargetType(wenv.reg, Named(f.value.entity.typeName)).None?
    && RoundTrippable(wenv, renv, f.value.entity)
  }

  predicate DistinctKeys(e: Entity) {
    forall j, k :: 0 <= j < k < |e.fields| ==> e.fields[j].desc.key != e.fields[k].desc.key
  }

  /** The fresh instance has the entity's class name and descriptors. */
  predicate SameShape(proto: Entity, e: Entity) {
    && proto.typeName == e.typeName
    && |proto.fields| == |e.fields|
    && forall j :: 0 <= j < |e.fields| ==> proto.fields[j].desc == e.fields[j].desc
  }

  /** A property neither `write` nor `read` touches because it is not
      mappable, such as `class`: it holds what the fresh instance holds. */
  predicate SkippedField(f: Field, initial: Field) {
    !f.desc.mappable && f.value == initial.value
  }

  /** An entity whose keys are distinct, whose class can be instantiated
      with the same descriptors, and whose properties are each plain, a
      nested entity that round-trips in turn, or unmappable and at the
      fresh instance's value. */
  predicate RoundTrippable(wenv: WriteEnv, renv: ReadEnv, e: Entity)
    decreases e, 1
  {
    && DistinctKeys(e)
    && e.typeName in renv.instantiate && SameShape(renv.instantiate[e.typeName], e)
    && forall j :: 0 <= j < |e.fields| ==>
         || PlainField(e.fields[j])
         || NestedField(wenv, renv, e.fields[j])
         || SkippedField(e.fields[j], renv.instantiate[e.typeName].fields[j])
  }

  /** A nested entity is stored as the document `write` produces for it. */
  lemma NestedStoredAsDocument(env: WriteEnv, f: Field)
    requires IdConversionIsSimple(env)
    requires Written(f) && f.value.Obj? && !f.desc.isEnum && !(f.desc.isIdProperty && f.desc.isOfIdType)
    requires f.value.entity.typeName !in SimpleTypeNames
    requires GetCustomTargetType(env.reg, Named(f.value.entity.typeName)).None?
    requires Write(env, f.value.entity, EmptyDocument).Success?
    ensures StoredValue(env, f) == Success(Doc(Write(env, f.value.entity, EmptyDocument).value))
  {
    assert !IsSimpleValue(f.value);
    assert StoredValue(env, f) == EncodeValue(env, f.value);
    assert EncodeValue(env, f.value) == EncodeCompound(env, f.value);
    assert WriteNested(env, f.value) == Write(env, f.value.entity, EmptyDocument);
  }

  /** A nested document holding the stored value is read back into the
      property's original value. */
  lemma ReadBack(renv: ReadEnv, src: Document, f: Field, stored: Value)
    requires ContainsKey(src, f.desc.key) && Get(src, f.desc.key) == stored
    requires f.desc.mappable
    requires (PlainField(f) && stored == f.value)
          || (f.value.Obj? && !f.desc.isCollection && !f.desc.isMap && stored.Doc?
              && f.desc.propertyType == Named(f.value.entity.typeName)
              && Read(renv, f.desc.propertyType, stored) == Success(f.value))
    ensures ReadProperty(renv, Doc(src), f.desc) == Success(Some(f.value))
  {
  }

  /** The stored value of a round-trippable property, and for a nested
      entity the fact that its document reads back. */
  lemma {:induction false} StoredSucceeds(wenv: WriteEnv, renv: ReadEnv, f: Field)
    requires IdConversionIsSimple(wenv)
    requires PlainField(f) || NestedField(wenv, renv, f)
    decreases f
    ensures StoredValue(wenv, f).Success?
    ensures PlainField(f) ==> StoredValue(wenv, f).value == f.value
    ensures !PlainField(f) ==>
      && Write(wenv, f.value.entity, EmptyDocument).Success?
      && StoredValue(wenv, f).value == Doc(Write(wenv, f.value.entity, EmptyDocument).value)
      && Read(renv, Named(f.value.entity.typeName), StoredValue(wenv, f).value) == Success(f.value)
  {
    if PlainField(f) {
      assert StoredValue(wenv, f) == EncodeValue(wenv, f.value);
    } else {
      EntityRoundTrip(wenv, renv, f.value.entity);
      NestedStoredAsDocument(wenv, f);
    }
  }

  /** `read` reconstructs a round-trippable entity, nested entities
      included, from the document `write` produced for it. */
  lemma {:induction false} EntityRoundTrip(wenv: WriteEnv, renv: ReadEnv, e: Entity)
    requires IdConversionIsSimple(wenv)
    requires RoundTrippable(wenv, renv, e)
    decreases e
    ensures Write(wenv, e, EmptyDocument).Success?
    ensures Read(renv, Named(e.typeName), Doc(Write(wenv, e, EmptyDocument).value)) == Success(Obj(e))
  {
    forall j | 0 <= j < |e.fields| && Written(e.fields[j])
      ensures StoredValue(wenv, e.fields[j]).Success?
    {
      StoredSucceeds(wenv, renv, e.fields[j]);
    }
    WriteFieldsSucceed(wenv, e, 0, EmptyDocument);
    var d := Write(wenv, e, EmptyDocument).value;
    var proto := renv.instantiate[e.typeName];
    forall j | 0 <= j < |e.fields|
      ensures ReadProperty(renv, Doc(d), proto.fields[j].desc).Success?
      ensures Assigned(ReadProperty(renv, Doc(d), proto.fields[j].desc).value, proto.fields[j].value) == e.fields[j].value
    {
      var f := e.fields[j];
      assert proto.fields[j].desc == f.desc;
      if f.desc.mappable {
        StoredSucceeds(wenv, renv, f);
        WriteStoresValue(wenv, e, j);
        ReadBack(renv, d, f, StoredValue(wenv, f).value);
      } else {
        assert SkippedField(f, proto.fields[j]);
        assert ReadProperty(renv, Doc(d), f.desc) == Success(None);
      }
    }
    var r := ReadFields(renv, Doc(d), proto, 0).value;
    assert r.fields == e.fields by {
      forall j | 0 <= j < |e.fields| ensures r.fields[j] == e.fields[j] { }
    }
  }

  /** A missing key, an unmappable descriptor or a stored value of an
      unexpected compound shape does not abort `read`: such a property keeps
      its default, a simple stored value is copied, and reading succeeds. */
  lemma ReadTolerant(env: ReadEnv, src: Value, e: Entity)
    requires IsDBObject(src)
    requires forall j :: 0 <= j < |e.fields| ==> CopiedDirectly(src, e.fields[j].desc) || LeftAtDefault(src, e.fields[j].desc)
    ensures ReadFields(env, src, e, 0).Success?
    ensures forall j :: 0 <= j < |e.fields| && LeftAtDefault(src, e.fields[j].desc) ==>
      ReadFields(env, src, e, 0).value.fields[j] == e.fields[j]
    ensures forall j :: 0 <= j < |e.fields| && CopiedDirectly(src, e.fields[j].desc) ==>
      ReadFields(env, src, e, 0).value.fields[j].value == FieldValue(src, e.fields[j].desc.key)
  {
    forall j | 0 <= j < |e.fields|
      ensures ReadProperty(env, src, e.fields[j].desc).Success?
      ensures LeftAtDefault(src, e.fields[j].desc) ==> ReadProperty(env, src, e.fields[j].desc) == Success(None)
      ensures CopiedDirectly(src, e.fields[j].desc) ==>
        ReadProperty(env, src, e.fields[j].desc) == Success(Some(FieldValue(src, e.fields[j].desc.key)))
    {
      ReadPropertyCases(env, src, e.fields[j].desc);
    }
    var r := ReadFields(env, src, e, 0).value;
    forall j | 0 <= j < |e.fields| && LeftAtDefault(src, e.fields[j].desc) ensures r.fields[j] == e.fields[j] {
      assert r.fields[j].desc == e.fields[j].desc;
    }
  }

  /** The document entries `write` produces for a map with text keys. */
  function FlatEntries(es: seq<(Value, Value)>): (r: seq<(string, Value)>)
    requires forall j :: 0 <= j < |es| ==> es[j].0.Str?
    ensures |r| == |es|
    ensures forall j :: 0 <= j < |es| ==> r[j] == (es[j].0.s, es[j].1)
  {
    seq(|es|, j requires 0 <= j < |es| => (es[j].0.s, es[j].1))
  }

  /** A map with distinct text keys and non-null simple values. */
  predicate PlainMap(es: seq<(Value, Value)>) {
    && (forall j :: 0 <= j < |es| ==> es[j].0.Str? && !es[j].1.Null? && IsSimpleValue(es[j].1))
    && (forall j, k :: 0 <= j < k < |es| ==> es[j].0 != es[k].0)
  }

  /** The document after `i` entries of a plain map. */
  lemma PlainMapPrefixPut(es: seq<(Value, Value)>, i: nat)
    requires PlainMap(es)
    requires i < |es|
    ensures Put(Document(FlatEntries(es)[..i]), es[i].0.s, es[i].1) == Document(FlatEntries(es)[..i + 1])
  {
    var flat := FlatEntries(es);
    var dbo := Document(flat[..i]);
    var k := es[i].0.s;
    var x := IndexOf(dbo.entries, k);
    assert x < 0;
    assert flat[..i] + [(k, es[i].1)] == flat[..i + 1];
  }

  lemma {:induction false} WriteMapPlain(env: WriteEnv, es: seq<(Value, Value)>, i: nat)
    requires IdConversionIsSimple(env)
    requires PlainMap(es)
    requires i <= |es|
    ensures WriteMapEntries(env, MapVal(es), i, Document(FlatEntries(es)[..i])) == Success(Document(FlatEntries(es)))
    decreases |es| - i
  {
    if i == |es| {
      assert FlatEntries(es)[..i] == FlatEntries(es);
    } else {
      PlainMapPrefixPut(es, i);
      WriteMapSimpleStep(env, MapVal(es), i, Document(FlatEntries(es)[..i]));
      WriteMapPlain(env, es, i + 1);
    }
  }

  lemma {:induction false} ReadMapPlain(env: ReadEnv, es: seq<(string, Value)>, t: Cls, i: nat)
    requires i <= |es|
    requires forall j :: 0 <= j < |es| ==> !es[j].1.Null? && IsSimpleValue(es[j].1) && ClassOf(es[j].1) == t
    requires LastMatch(env.reg.rules, t, t) < 0
    ensures ReadMap(env, Doc(Document(es)), t, i).Success?
    decreases |es| - i
  {
    if i < |es| {
      ReadMapPlain(env, es, t, i + 1);
    }
  }

  lemma MapTypeParameters(raw: Cls, t: Cls)
    ensures GetGenericParameters(ParamTy(raw, [ClassTy(StringCls), ClassTy(t)])) == Success([StringCls, t])
  {
    var ty := ParamTy(raw, [ClassTy(StringCls), ClassTy(t)]);
    assert ResolveArgument(ty.args[0]) == Success(StringCls);
    assert ResolveArgument(ty.args[1]) == Success(t);
    var ps := GetGenericParameters(ty);
    assert ps.Success?;
    assert |ps.value| == 2 && ps.value[0] == StringCls && ps.value[1] == t;
    assert ps.value == [StringCls, t];
  }

  lemma WriteMapValue(wenv: WriteEnv, es: seq<(Value, Value)>)
    requires IdConversionIsSimple(wenv)
    requires PlainMap(es)
    ensures EncodeValue(wenv, MapVal(es)) == Success(Doc(Document(FlatEntries(es))))
  {
    assert FlatEntries(es)[..0] == [];
    WriteMapPlain(wenv, es, 0);
    MapStoredAsDocument(wenv, MapVal(es));
  }

  lemma ReadMapValue(renv: ReadEnv, d: Descriptor, es: seq<(Value, Value)>, t: Cls)
    requires PlainMap(es)
    requires forall j :: 0 <= j < |es| ==> ClassOf(es[j].1) == t
    requires LastMatch(renv.reg.rules, t, t) < 0
    requires d.isMap && !d.isCollection
    requires d.typeToSet.ParamTy? && d.typeToSet.args == [ClassTy(StringCls), ClassTy(t)]
    ensures ReadCompound(renv, d, Doc(Document(FlatEntries(es)))) == Success(MapVal(es))
  {
    var flat := FlatEntries(es);
    MapTypeParameters(d.typeToSet.raw, t);
    ReadMapPlain(renv, flat, t, 0);
    var r := ReadMap(renv, Doc(Document(flat)), t, 0).value;
    assert r == es by {
      forall j | 0 <= j < |es| ensures r[j] == es[j] {
        assert r[j].0 == Str(flat[j].0);
        assert Convert(renv.reg, es[j].1, t) == Success(es[j].1);
      }
    }
  }

  /** A map property with text keys and simple values of the declared value
      class, for which no converter is registered from that class to itself,
      reads back to the same entries in the same order. */
  lemma MapRoundTrip(wenv: WriteEnv, renv: ReadEnv, d: Descriptor, es: seq<(Value, Value)>, t: Cls)
    requires IdConversionIsSimple(wenv)
    requires PlainMap(es)
    requires forall j :: 0 <= j < |es| ==> ClassOf(es[j].1) == t
    requires LastMatch(renv.reg.rules, t, t) < 0
    requires d.isMap && !d.isCollection
    requires d.typeToSet.ParamTy? && d.typeToSet.args == [ClassTy(StringCls), ClassTy(t)]
    ensures EncodeValue(wenv, MapVal(es)).Success? && EncodeValue(wenv, MapVal(es)).value.Doc?
    ensures ReadCompound(renv, d, EncodeValue(wenv, MapVal(es)).value) == Success(MapVal(es))
  {
    WriteMapValue(wenv, es);
    ReadMapValue(renv, d, es, t);
  }

  /** Writing an array of non-null simple elements stores an `Object[]`
      of the same elements. */
  lemma WriteSimpleArray(wenv: WriteEnv, v: Value)
    requires IdConversionIsSimple(wenv)
    requires v.ArrVal? && !IsSimpleValue(v)
    requires forall j :: 0 <= j < |v.elems| ==> !v.elems[j].Null? && IsSimpleValue(v.elems[j])
    ensures EncodeValue(wenv, v) == Success(ArrVal(ObjectCls, v.elems))
  {
    EncodeArrayElementwise(wenv, v, 0);
    forall j | 0 <= j < |v.elems| ensures EncodeElement(wenv, v.elems[j]) == Success(v.elems[j]) {
      EncodeElementCases(wenv, v.elems[j]);
    }
    assert EncodeArray(wenv, v, 0).value == v.elems;
    assert EncodeValue(wenv, v) == EncodeCompound(wenv, v);
  }

  /** Elements none of which is a `DBObject` pass through `readCollection`. */
  lemma {:induction false} ReadElementsPassThrough(renv: ReadEnv, d: Descriptor, values: Value, i: nat)
    requires values.ArrVal? || values.DList?
    requires i <= |values.elems|
    requires forall j :: i <= j < |values.elems| ==> !IsDBObject(values.elems[j])
    ensures ReadElements(renv, d, values, i) == Success(values.elems[i..])
    decreases |values.elems| - i
  {
    if i < |values.elems| {
      ReadElementsPassThrough(renv, d, values, i + 1);
      assert values.elems[i..] == [values.elems[i]] + values.elems[i + 1..];
      assert ReadElements(renv, d, values, i) == Success([values.elems[i]] + values.elems[i + 1..]);
    } else {
      assert values.elems[i..] == [];
    }
  }

  /** Reading an `Object[]` of simple elements into an array property
      assigns an `Object[]` of the same elements in the same order. */
  lemma ReadSimpleArray(renv: ReadEnv, d: Descriptor, elems: seq<Value>, src: Document)
    requires forall j :: 0 <= j < |elems| ==> !elems[j].Null? && IsSimpleValue(elems[j])
    requires d.mappable && d.propertyType.ArrayCls?
    requires ContainsKey(src, d.key) && Get(src, d.key) == ArrVal(ObjectCls, elems)
    ensures ReadProperty(renv, Doc(src), d) == Success(Some(ArrVal(ObjectCls, elems)))
  {
    var stored := ArrVal(ObjectCls, elems);
    assert !IsSimpleValue(stored);
    ReadElementsPassThrough(renv, d, stored, 0);
    assert elems[0..] == elems;
    assert ReadCollection(renv, d, stored) == Success(CollVal(ArrayListCls, elems));
  }

  /** An array of non-null simple elements, for a property declared as an
      array, is stored as an `Object[]` of the same elements and read back
      as an `Object[]` of the same elements in the same order. */
  lemma ArrayRoundTrip(wenv: WriteEnv, renv: ReadEnv, d: Descriptor, v: Value, src: Document)
    requires IdConversionIsSimple(wenv)
    requires v.ArrVal? && !IsSimpleValue(v)
    requires forall j :: 0 <= j < |v.elems| ==> !v.elems[j].Null? && IsSimpleValue(v.elems[j])
    requires d.mappable && d.propertyType.ArrayCls?
    requires ContainsKey(src, d.key) && Success(Get(src, d.key)) == EncodeValue(wenv, v)
    ensures EncodeValue(wenv, v) == Success(ArrVal(ObjectCls, v.elems))
    ensures ReadProperty(renv, Doc(src), d) == Success(Some(ArrVal(ObjectCls, v.elems)))
  {
    WriteSimpleArray(wenv, v);
    ReadSimpleArray(renv, d, v.elems, src);
  }

  /** A list of non-null simple elements, for a property declared as a list
      class, is stored as an `Object[]` of the same elements. Reading it back
      fills a fresh list with the same elements in the same order, and
      `toArray` hands them to the bean wrapper as an `Object[]`. */
  lemma ListRoundTrip(wenv: WriteEnv, renv: ReadEnv, d: Descriptor, v: Value, src: Document)
    requires IdConversionIsSimple(wenv)
    requires v.CollVal? && !IsSimpleValue(v)
    requires forall j :: 0 <= j < |v.elems| ==> !v.elems[j].Null? && IsSimpleValue(v.elems[j])
    requires d.mappable && IsListClass(d.propertyType) && ListsKeepOrder(renv)
    requires ContainsKey(src, d.key) && Success(Get(src, d.key)) == EncodeValue(wenv, v)
    ensures EncodeValue(wenv, v) == Success(ArrVal(ObjectCls, v.elems))
    ensures ReadCollection(renv, d, ArrVal(ObjectCls, v.elems)) == Success(CollVal(d.propertyType, v.elems))
    ensures ReadProperty(renv, Doc(src), d) == Success(Some(ArrVal(ObjectCls, v.elems)))
  {
    CollectionStoredAsArray(wenv, v);
    forall j | 0 <= j < |v.elems| ensures EncodeElement(wenv, v.elems[j]) == Success(v.elems[j]) {
      EncodeElementCases(wenv, v.elems[j]);
    }
    assert EncodeValue(wenv, v).value.elems == v.elems;
    var stored := ArrVal(ObjectCls, v.elems);
    assert !IsSimpleValue(stored);
    ReadElementsPassThrough(renv, d, stored, 0);
    assert v.elems[0..] == v.elems;
    assert renv.collect(d.propertyType, v.elems) == Some(v.elems);
  }
}

=== FILE: writer.dfy ===
/** The writing half of the converter: an entity becomes a document. */
module Writer {
  import opened Results
  import opened JavaTypes
  import opened Documents
  import opened Conversions

  /** What the writer depends on but does not define: the conversion
      registry, the `ObjectId` library, and what `write` produces for a
      non-entity object, whose bean properties come from reflection. */
  datatype WriteEnv = WriteEnv(reg: Registry, bson: Bson, reflectWrite: Value -> Document)

  /** Every conversion of a `String` to an `ObjectId` yields a simple value
      (an identifier), so storing a coerced id needs no further recursion. */
  ghost predicate IdConversionIsSimple(env: WriteEnv) {
    forall s: string {:trigger Convert(env.reg, Str(s), ObjectIdCls)} ::
      var c := Convert(env.reg, Str(s), ObjectIdCls);
      c.Success? && !c.value.Null? ==> IsSimpleValue(c.value)
  }

  /** The classes a custom converter may turn a value into for direct
      storage, in the order they are tried. */
  const MongoTypes: seq<Cls> := [NumberCls, DateCls, StringCls, DBObjectCls]

  /** `getCustomTargetType`: the first of `MongoTypes` from `i` on that the
      registry can convert class `c` to. */
  function CustomTargetFrom(reg: Registry, c: Cls, i: nat): (r: Option<Cls>)
    requires i <= |MongoTypes|
    decreases |MongoTypes| - i
    ensures r.Some? ==> exists j :: i <= j < |MongoTypes| && r.value == MongoTypes[j]
                                  && CanConvert(reg, c, MongoTypes[j])
                                  && forall k :: i <= k < j ==> !CanConvert(reg, c, MongoTypes[k])
    ensures r.None? <==> forall j :: i <= j < |MongoTypes| ==> !CanConvert(reg, c, MongoTypes[j])
  {
    if i == |MongoTypes| then None
    else if CanConvert(reg, c, MongoTypes[i]) then Some(MongoTypes[i])
    else CustomTargetFrom(reg, c, i + 1)
  }

  function GetCustomTargetType(reg: Registry, c: Cls): (r: Option<Cls>)
    ensures r.Some? ==> exists j :: 0 <= j < |MongoTypes| && r.value == MongoTypes[j]
                                  && CanConvert(reg, c, MongoTypes[j])
                                  && forall k :: 0 <= k < j ==> !CanConvert(reg, c, MongoTypes[k])
    ensures r.None? <==> forall j :: 0 <= j < |MongoTypes| ==> !CanConvert(reg, c, MongoTypes[j])
  {
    CustomTargetFrom(reg, c, 0)
  }

  /** `write(obj, dbo)`: every mappable property with a non-null value is
      stored under its key, in descriptor order. */
  function Write(env: WriteEnv, e: Entity, dbo: Document): Result<Document>
    requires IdConversionIsSimple(env)
    decreases Obj(e), 3, 0
  {
    WriteFields(env, e, 0, dbo)
  }

  /** Whether `write` stores anything for a property. */
  predicate Written(f: Field) {
    f.desc.mappable && !f.value.Null?
  }

  function WriteFields(env: WriteEnv, e: Entity, i: nat, dbo: Document): Result<Document>
    requires IdConversionIsSimple(env)
    requires i <= |e.fields|
    decreases Obj(e), 2, |e.fields| - i
  {
    if i == |e.fields| then Success(dbo)
    else
      var f := e.fields[i];
      if !Written(f) then WriteFields(env, e, i + 1, dbo)
      else
        var stored :- StoredValue(env, f);
        WriteFields(env, e, i + 1, Put(dbo, f.desc.key, stored))
  }

  /** The value `write` puts under the key of a mappable, non-null property:
      an enum's name; an id that is a valid identifier string, converted to an
      `ObjectId` (the string itself if the conversion fails); otherwise the
      value as `writeValue` renders it. */
  function StoredValue(env: WriteEnv, f: Field): Result<Value>
    requires IdConversionIsSimple(env)
    requires Written(f)
    decreases f.value, 8
  {
    var d := f.desc;
    var v := f.value;
    if d.isEnum then
      if v.EnumConst? then Success(Str(v.constName)) else Failure(ClassCast)
    else if d.isIdProperty && d.isOfIdType && v.Str? && env.bson.isValid(v.s) then
      var c := Convert(env.reg, v, ObjectIdCls);
      if c.Success? then
        if c.value.Null? then Failure(NullPointer)
        else if IsSimpleValue(c.value) then Success(c.value)
        else assert false; Failure(ClassCast)
      else if c.error == ConversionFailed then Success(v)
      else Failure(c.error)
    else EncodeValue(env, v)
  }

  /** `writeValue`: what ends up under the key; a simple value as it is, a
      compound one decomposed. */
  function EncodeValue(env: WriteEnv, v: Value): (r: Result<Value>)
    requires IdConversionIsSimple(env)
    decreases v, 7
  {
    if v.Null? then Failure(NullPointer)
    else if IsSimpleValue(v) then Success(v)
    else EncodeCompound(env, v)
  }

  /** `writeCompoundValue`: maps become nested documents, collections and
      object arrays become arrays, a value with a custom converter to a
      storable class is converted, anything else is written as an entity. */
  function EncodeCompound(env: WriteEnv, v: Value): (r: Result<Value>)
    requires IdConversionIsSimple(env)
    requires !v.Null? && !IsSimpleValue(v)
    decreases v, 6
  {
    match v
    case MapVal(_) =>
      var d :- WriteMapEntries(env, v, 0, EmptyDocument);
      Success(Doc(d))
    case Doc(_) =>
      var d :- WriteMapEntries(env, v, 0, EmptyDocument);
      Success(Doc(d))
    case CollVal(_, _) =>
      var xs :- EncodeArray(env, v, 0);
      Success(ArrVal(ObjectCls, xs))
    case DList(_) =>
      var xs :- EncodeArray(env, v, 0);
      Success(ArrVal(ObjectCls, xs))
    case ArrVal(_, _) =>
      var xs :- EncodeArray(env, v, 0);
      Success(ArrVal(ObjectCls, xs))
    case Null => assert false; Failure(NullPointer)
    case Str(_) => assert false; Success(v)
    case _ =>
      match GetCustomTargetType(env.reg, ClassOf(v))
      case Some(t) => Convert(env.reg, v, t)
      case None =>
        var d :- WriteNested(env, v);
        Success(Doc(d))
  }

  /** `write(value, new BasicDBObject())` for a value that is not simple. */
  function WriteNested(env: WriteEnv, v: Value): Result<Document>
    requires IdConversionIsSimple(env)
    decreases v, 5
  {
    if v.Obj? then Write(env, v.entity, EmptyDocument)
    else Success(env.reflectWrite(v))
  }

  function MapSize(m: Value): nat {
    match m
    case MapVal(es) => |es|
    case Doc(d) => |d.entries|
    case _ => 0
  }

  /** The loop of `writeMap` over the entries `i..` of a map (a `Map` or a
      `BasicDBObject`), filling `dbo`, the fresh document of the map. */
  function WriteMapEntries(env: WriteEnv, m: Value, i: nat, dbo: Document): Result<Document>
    requires IdConversionIsSimple(env)
    requires m.MapVal? || m.Doc?
    requires i <= MapSize(m)
    decreases m, 4, MapSize(m) - i
  {
    if i == MapSize(m) then Success(dbo)
    else
      var key: Value := if m.MapVal? then m.entries[i].0 else Str(m.doc.entries[i].0);
      var val: Value := if m.MapVal? then m.entries[i].1 else m.doc.entries[i].1;
      assert val < m by {
        if m.MapVal? { assert m.entries[i] in m.entries; }
        else { assert m.doc.entries[i] in m.doc.entries; }
      }
      if !key.Str? then Failure(ClassCast)
      else if val.Null? then Failure(NullPointer)
      else if IsSimpleValue(val) then WriteMapEntries(env, m, i + 1, Put(dbo, key.s, val))
      else
        var x :- EncodeCompound(env, val);
        WriteMapEntries(env, m, i + 1, Put(dbo, key.s, x))
  }

  /** The elements of a collection, a `BasicDBList` or an array. */
  function Elements(v: Value): seq<Value> {
    match v
    case CollVal(_, es) => es
    case DList(es) => es
    case ArrVal(_, es) => es
    case _ => []
  }

  /** The loop of `writeArray` from element `i` on: simple elements are
      kept, every other one is written as an entity into a fresh document. */
  function EncodeArray(env: WriteEnv, a: Value, i: nat): Result<seq<Value>>
    requires IdConversionIsSimple(env)
    requires i <= |Elements(a)|
    decreases a, 4, |Elements(a)| - i
  {
    if i == |Elements(a)| then Success([])
    else
      var o := Elements(a)[i];
      assert o < a by { assert o in Elements(a); }
      var head :- EncodeElement(env, o);
      var tail :- EncodeArray(env, a, i + 1);
      Success([head] + tail)
  }

  /** One element of `writeArray`: kept when simple, otherwise always
      written through `write`, never through `writeCompoundValue`. */
  function EncodeElement(env: WriteEnv, o: Value): Result<Value>
    requires IdConversionIsSimple(env)
    decreases o, 6
  {
    if o.Null? then Failure(NullPointer)
    else if IsSimpleValue(o) then Success(o)
    else
      var d :- WriteNested(env, o);
      Success(Doc(d))
  }
}

=== FILE: writer_properties.dfy ===
/** What `write` promises about the documents it produces. */
module WriterProperties {
  import opened Results
  import opened JavaTypes
  import opened Documents
  import opened Conversions
  import opened Writer

  /** The keys of the properties from `i` on that `write` stores. */
  function WrittenKeys(e: Entity, i: nat): set<string>
    requires i <= |e.fields|
  {
    set j | i <= j < |e.fields| && Written(e.fields[j]) :: e.fields[j].desc.key
  }

  /** The document gains exactly the keys of the mappable, non-null
      properties: nothing for a null value or an unmappable descriptor. */
  lemma {:induction false} WriteFieldsKeys(env: WriteEnv, e: Entity, i: nat, dbo: Document)
    requires IdConversionIsSimple(env)
    requires i <= |e.fields|
    requires WriteFields(env, e, i, dbo).Success?
    ensures Keys(WriteFields(env, e, i, dbo).value) == Keys(dbo) + WrittenKeys(e, i)
    decreases |e.fields| - i
  {
    if i < |e.fields| {
      var f := e.fields[i];
      var next := if Written(f) then Put(dbo, f.desc.key, StoredValue(env, f).value) else dbo;
      WriteFieldsKeys(env, e, i + 1, next);
      assert WrittenKeys(e, i) == WrittenKeys(e, i + 1) + (if Written(f) then {f.desc.key} else {});
    } else {
      assert WrittenKeys(e, i) == {};
    }
  }

  lemma WriteKeys(env: WriteEnv, e: Entity)
    requires IdConversionIsSimple(env)
    requires Write(env, e, EmptyDocument).Success?
    ensures Keys(Write(env, e, EmptyDocument).value) == WrittenKeys(e, 0)
  {
    WriteFieldsKeys(env, e, 0, EmptyDocument);
  }

  /** No property from `i` on that `write` stores uses key `k`. */
  predicate KeyUnwritten(e: Entity, i: nat, k: string)
    requires i <= |e.fields|
  {
    forall j :: i <= j < |e.fields| && Written(e.fields[j]) ==> e.fields[j].desc.key != k
  }

  /** One step of the loop of `write`. */
  lemma WriteFieldsStep(env: WriteEnv, e: Entity, i: nat, dbo: Document)
    requires IdConversionIsSimple(env)
    requires i < |e.fields|
    ensures !Written(e.fields[i]) ==> WriteFields(env, e, i, dbo) == WriteFields(env, e, i + 1, dbo)
    ensures Written(e.fields[i]) && StoredValue(env, e.fields[i]).Failure? ==> WriteFields(env, e, i, dbo).Failure?
    ensures Written(e.fields[i]) && StoredValue(env, e.fields[i]).Success? ==>
      WriteFields(env, e, i, dbo) == WriteFields(env, e, i + 1, Put(dbo, e.fields[i].desc.key, StoredValue(env, e.fields[i]).value))
  {
  }

  /** `write` succeeds when every stored property's value can be stored. */
  lemma {:induction false} WriteFieldsSucceed(env: WriteEnv, e: Entity, i: nat, dbo: Document)
    requires IdConversionIsSimple(env)
    requires i <= |e.fields|
    requires forall j :: i <= j < |e.fields| && Written(e.fields[j]) ==> StoredValue(env, e.fields[j]).Success?
    ensures WriteFields(env, e, i, dbo).Success?
    decreases |e.fields| - i
  {
    if i < |e.fields| {
      WriteFieldsStep(env, e, i, dbo);
      var f := e.fields[i];
      var next := if Written(f) then Put(dbo, f.desc.key, StoredValue(env, f).value) else dbo;
      WriteFieldsSucceed(env, e, i + 1, next);
    }
  }

  /** Each stored property's key ends up holding its stored value unless a
      later property overwrites the key; other keys keep what they held. */
  lemma {:induction false} WriteFieldsContents(env: WriteEnv, e: Entity, i: nat, dbo: Document)
    requires IdConversionIsSimple(env)
    requires i <= |e.fields|
    requires WriteFields(env, e, i, dbo).Success?
    ensures forall k :: KeyUnwritten(e, i, k) ==>
      Get(WriteFields(env, e, i, dbo).value, k) == Get(dbo, k)
    ensures forall j :: i <= j < |e.fields| && Written(e.fields[j]) && KeyUnwritten(e, j + 1, e.fields[j].desc.key) ==>
      StoredValue(env, e.fields[j]).Success?
      && Get(WriteFields(env, e, i, dbo).value, e.fields[j].desc.key) == StoredValue(env, e.fields[j]).value
    decreases |e.fields| - i
  {
    if i < |e.fields| {
      var f := e.fields[i];
      WriteFieldsStep(env, e, i, dbo);
      var next := if Written(f) then Put(dbo, f.desc.key, StoredValue(env, f).value) else dbo;
      assert WriteFields(env, e, i, dbo) == WriteFields(env, e, i + 1, next);
      WriteFieldsContents(env, e, i + 1, next);
      var r := WriteFields(env, e, i, dbo).value;
      forall k | KeyUnwritten(e, i, k) ensures Get(r, k) == Get(dbo, k) {
        assert KeyUnwritten(e, i + 1, k);
      }
    }
  }

  /** After `write` into an empty document, the key of a property no later
      property shares holds the property's stored value. */
  lemma WriteStoresValue(env: WriteEnv, e: Entity, j: nat)
    requires IdConversionIsSimple(env)
    requires j < |e.fields| && Written(e.fields[j]) && KeyUnwritten(e, j + 1, e.fields[j].desc.key)
    requires Write(env, e, EmptyDocument).Success?
    ensures StoredValue(env, e.fields[j]).Success?
    ensures ContainsKey(Write(env, e, EmptyDocument).value, e.fields[j].desc.key)
    ensures Get(Write(env, e, EmptyDocument).value, e.fields[j].desc.key) == StoredValue(env, e.fields[j]).value
  {
    WriteFieldsContents(env, e, 0, EmptyDocument);
    WriteFieldsKeys(env, e, 0, EmptyDocument);
    var r := Write(env, e, EmptyDocument).value;
    var k := e.fields[j].desc.key;
    assert k in Keys(r);
    var x :| 0 <= x < |r.entries| && r.entries[x].0 == k;
  }

  /** An enum property is stored as the constant's name. */
  lemma EnumStoredAsName(env: WriteEnv, f: Field)
    requires IdConversionIsSimple(env)
    requires Written(f) && f.desc.isEnum
    ensures f.value.EnumConst? ==> StoredValue(env, f) == Success(Str(f.value.constName))
    ensures !f.value.EnumConst? ==> StoredValue(env, f) == Failure(ClassCast)
  {
  }

  /** The converter's own registry turns every `String` into a simple value
      when converting to `ObjectId`. */
  lemma {:induction false} SeededIdConversionIsSimple(defaults: Registry, b: Bson, reflect: Value -> Document)
    ensures IdConversionIsSimple(WriteEnv(InitializeConverters(defaults, b), b, reflect))
  {
    var env := WriteEnv(InitializeConverters(defaults, b), b, reflect);
    forall s: string ensures
      var c := Convert(env.reg, Str(s), ObjectIdCls);
      c.Success? && !c.value.Null? ==> IsSimpleValue(c.value)
    {
      SeededConversions(defaults, b, s, "", "");
    }
  }

  /** Id coercion with the converter's own registry: a valid identifier
      string is stored as the `ObjectId` the constructor yields, and as the
      string itself when the constructor rejects it; no error escapes. Any
      other id value is stored as `writeValue` renders it. */
  lemma {:induction false} IdCoercion(defaults: Registry, b: Bson, reflect: Value -> Document, f: Field)
    requires Written(f) && !f.desc.isEnum && f.desc.isIdProperty && f.desc.isOfIdType
    ensures IdConversionIsSimple(WriteEnv(InitializeConverters(defaults, b), b, reflect))
    ensures var env := WriteEnv(InitializeConverters(defaults, b), b, reflect);
      StoredValue(env, f) ==
        if f.value.Str? && b.isValid(f.value.s) then
          (if b.parse(f.value.s).Some? then Success(Atom(ObjectIdCls, b.parse(f.value.s).value))
           else Success(f.value))
        else EncodeValue(env, f.value)
  {
    SeededIdConversionIsSimple(defaults, b, reflect);
    if f.value.Str? {
      SeededConversions(defaults, b, f.value.s, "", "");
    }
  }

  /** One step of the loop of `writeArray`. */
  lemma EncodeArrayStep(env: WriteEnv, a: Value, i: nat)
    requires IdConversionIsSimple(env)
    requires i < |Elements(a)|
    ensures EncodeArray(env, a, i).Success? <==>
      EncodeElement(env, Elements(a)[i]).Success? && EncodeArray(env, a, i + 1).Success?
    ensures EncodeArray(env, a, i).Success? ==>
      EncodeArray(env, a, i).value == [EncodeElement(env, Elements(a)[i]).value] + EncodeArray(env, a, i + 1).value
  {
  }

  /** `writeArray`: the stored array has one element per input element, in
      order, each encoded on its own. */
  lemma {:induction false} EncodeArrayElementwise(env: WriteEnv, a: Value, i: nat)
    requires IdConversionIsSimple(env)
    requires i <= |Elements(a)|
    ensures EncodeArray(env, a, i).Success? <==>
      forall j :: i <= j < |Elements(a)| ==> EncodeElement(env, Elements(a)[j]).Success?
    ensures EncodeArray(env, a, i).Success? ==>
      && |EncodeArray(env, a, i).value| == |Elements(a)| - i
      && forall j :: i <= j < |Elements(a)| ==>
           EncodeArray(env, a, i).value[j - i] == EncodeElement(env, Elements(a)[j]).value
    decreases |Elements(a)| - i
  {
    if i < |Elements(a)| {
      EncodeArrayStep(env, a, i);
      EncodeArrayElementwise(env, a, i + 1);
    }
  }

  /** A simple element is copied; any other is replaced by the document
      `write` produces for it, even a map or a collection; null fails. */
  lemma EncodeElementCases(env: WriteEnv, o: Value)
    requires IdConversionIsSimple(env)
    ensures o.Null? ==> EncodeElement(env, o) == Failure(NullPointer)
    ensures !o.Null? && IsSimpleValue(o) ==> EncodeElement(env, o) == Success(o)
    ensures !o.Null? && !IsSimpleValue(o) ==>
      (EncodeElement(env, o).Success? <==> WriteNested(env, o).Success?)
      && (EncodeElement(env, o).Success? ==> EncodeElement(env, o).value == Doc(WriteNested(env, o).value))
  {
  }

  /** One step of the loop of `writeMap` on a text key and a simple value. */
  lemma WriteMapSimpleStep(env: WriteEnv, m: Value, i: nat, dbo: Document)
    requires IdConversionIsSimple(env)
    requires m.MapVal? && i < |m.entries|
    requires m.entries[i].0.Str? && !m.entries[i].1.Null? && IsSimpleValue(m.entries[i].1)
    ensures WriteMapEntries(env, m, i, dbo) == WriteMapEntries(env, m, i + 1, Put(dbo, m.entries[i].0.s, m.entries[i].1))
  {
  }

  /** A map (or a `BasicDBObject`) is stored as the fresh document its
      entries are written into. */
  lemma MapStoredAsDocument(env: WriteEnv, v: Value)
    requires IdConversionIsSimple(env)
    requires v.MapVal? || v.Doc?
    ensures WriteMapEntries(env, v, 0, EmptyDocument).Success? ==>
      EncodeValue(env, v) == Success(Doc(WriteMapEntries(env, v, 0, EmptyDocument).value))
    ensures WriteMapEntries(env, v, 0, EmptyDocument).Failure? ==> EncodeValue(env, v).Failure?
  {
    assert !IsSimpleValue(v);
    assert EncodeValue(env, v) == EncodeCompound(env, v);
  }

  /** A collection, `BasicDBList` or object array is stored as an object
      array exactly when every element can be stored, holding each element
      as `writeArray` stores it at the element's own index. */
  lemma CollectionStoredAsArray(env: WriteEnv, v: Value)
    requires IdConversionIsSimple(env)
    requires (v.CollVal? || v.DList? || v.ArrVal?) && !IsSimpleValue(v)
    ensures EncodeValue(env, v).Success? <==>
      forall j :: 0 <= j < |v.elems| ==> EncodeElement(env, v.elems[j]).Success?
    ensures EncodeValue(env, v).Success? ==>
      && EncodeValue(env, v).value.ArrVal?
      && EncodeValue(env, v).value.component == ObjectCls
      && |EncodeValue(env, v).value.elems| == |v.elems|
      && forall j :: 0 <= j < |v.elems| ==>
           EncodeElement(env, v.elems[j]) == Success(EncodeValue(env, v).value.elems[j])
  {
    CollectionStoredIff(env, v);
    CollectionStoredContents(env, v);
  }

  lemma CollectionStoredIff(env: WriteEnv, v: Value)
    requires IdConversionIsSimple(env)
    requires (v.CollVal? || v.DList? || v.ArrVal?) && !IsSimpleValue(v)
    ensures EncodeValue(env, v).Success? <==>
      forall j :: 0 <= j < |v.elems| ==> EncodeElement(env, v.elems[j]).Success?
  {
    EncodeArrayElementwise(env, v, 0);
    CollectionEncodedByEncodeArray(env, v);
    assert Elements(v) == v.elems;
  }

  lemma CollectionStoredContents(env: WriteEnv, v: Value)
    requires IdConversionIsSimple(env)
    requires (v.CollVal? || v.DList? || v.ArrVal?) && !IsSimpleValue(v)
    ensures EncodeValue(env, v).Success? ==>
      && EncodeValue(env, v).value.ArrVal?
      && EncodeValue(env, v).value.component == ObjectCls
      && |EncodeValue(env, v).value.elems| == |v.elems|
      && forall j :: 0 <= j < |v.elems| ==>
           EncodeElement(env, v.elems[j]) == Success(EncodeValue(env, v).value.elems[j])
  {
    EncodeArrayAll(env, v);
    CollectionEncodedByEncodeArray(env, v);
  }

  /** `EncodeArrayElementwise` from the first element of a collection. */
  lemma EncodeArrayAll(env: WriteEnv, v: Value)
    requires IdConversionIsSimple(env)
    requires v.CollVal? || v.DList? || v.ArrVal?
    ensures EncodeArray(env, v, 0).Success? ==>
      && |EncodeArray(env, v, 0).value| == |v.elems|
      && forall j :: 0 <= j < |v.elems| ==> EncodeElement(env, v.elems[j]) == Success(EncodeArray(env, v, 0).value[j])
  {
    EncodeArrayElementwise(env, v, 0);
    var ea := EncodeArray(env, v, 0);
    if ea.Success? {
      assert |Elements(v)| == |v.elems|;
      forall j | 0 <= j < |v.elems| ensures EncodeElement(env, v.elems[j]) == Success(ea.value[j]) {
        assert Elements(v)[j] == v.elems[j];
        assert ea.value[j - 0] == EncodeElement(env, Elements(v)[j]).value;
      }
    }
  }

  /** `writeCompoundValue` hands a collection, `BasicDBList` or object array
      to `writeArray` and stores the result as an object array. */
  lemma CollectionEncodedByEncodeArray(env: WriteEnv, v: Value)
    requires IdConversionIsSimple(env)
    requires (v.CollVal? || v.DList? || v.ArrVal?) && !IsSimpleValue(v)
    ensures EncodeValue(env, v) ==
      if EncodeArray(env, v, 0).Success? then Success(ArrVal(ObjectCls, EncodeArray(env, v, 0).value))
      else Failure(EncodeArray(env, v, 0).error)
  {
    assert EncodeValue(env, v) == EncodeCompound(env, v);
  }

  /** A compound value that is neither a map, a collection nor an array is
      stored as its conversion to the first storable class the registry
      supports, and written as a nested document only when there is none. */
  lemma CustomTargetStored(env: WriteEnv, v: Value)
    requires IdConversionIsSimple(env)
    requires !v.Null? && !IsSimpleValue(v)
    requires !(v.MapVal? || v.Doc? || v.CollVal? || v.DList? || v.ArrVal?)
    ensures var t := GetCustomTargetType(env.reg, ClassOf(v));
      && (t.Some? ==> EncodeValue(env, v) == Convert(env.reg, v, t.value))
      && (t.None? && EncodeValue(env, v).Success? ==>
            WriteNested(env, v).Success? && EncodeValue(env, v).value == Doc(WriteNested(env, v).value))
  {
    assert EncodeValue(env, v) == EncodeCompound(env, v);
    match v
    case Atom(_, _) =>
    case EnumConst(_, _) =>
    case Obj(_) =>
  }

  /** The loop of `writeMap` fails when the key at `bad`, ahead of it, is
      not a `String`: the cast of that key throws, if nothing before it has. */
  lemma {:induction false} NonTextKeyFailsFrom(env: WriteEnv, es: seq<(Value, Value)>, i: nat, dbo: Document, bad: nat)
    requires IdConversionIsSimple(env)
    requires i <= bad < |es| && !es[bad].0.Str?
    ensures WriteMapEntries(env, MapVal(es), i, dbo).Failure?
    decreases |es| - i
  {
    var m := MapVal(es);
    var (key, val) := es[i];
    if !key.Str? {
      WriteMapKeyCastStep(env, m, i, dbo);
    } else if val.Null? {
    } else if IsSimpleValue(val) {
      WriteMapSimpleStep(env, m, i, dbo);
      NonTextKeyFailsFrom(env, es, i + 1, Put(dbo, key.s, val), bad);
    } else {
      WriteMapCompoundStep(env, m, i, dbo);
      if EncodeCompound(env, val).Success? {
        NonTextKeyFailsFrom(env, es, i + 1, Put(dbo, key.s, EncodeCompound(env, val).value), bad);
      }
    }
  }

  /** When every value ahead is simple and non-null, that failure is the
      cast of the first key that is not a `String`. */
  lemma {:induction false} NonTextKeyCastFrom(env: WriteEnv, es: seq<(Value, Value)>, i: nat, dbo: Document, bad: nat)
    requires IdConversionIsSimple(env)
    requires i <= bad < |es| && !es[bad].0.Str?
    requires forall j :: i <= j < |es| ==> !es[j].1.Null? && IsSimpleValue(es[j].1)
    ensures WriteMapEntries(env, MapVal(es), i, dbo) == Failure(ClassCast)
    decreases |es| - i
  {
    var m := MapVal(es);
    var (key, val) := es[i];
    if !key.Str? {
      WriteMapKeyCastStep(env, m, i, dbo);
    } else {
      assert !val.Null? && IsSimpleValue(val);
      var next := Put(dbo, key.s, val);
      WriteMapSimpleStep(env, m, i, dbo);
      assert WriteMapEntries(env, m, i, dbo) == WriteMapEntries(env, m, i + 1, next);
      NonTextKeyCastFrom(env, es, i + 1, next, bad);
    }
  }

  /** A step of the loop of `writeMap` on a key that is not a `String`. */
  lemma WriteMapKeyCastStep(env: WriteEnv, m: Value, i: nat, dbo: Document)
    requires IdConversionIsSimple(env)
    requires m.MapVal? && i < |m.entries| && !m.entries[i].0.Str?
    ensures WriteMapEntries(env, m, i, dbo) == Failure(ClassCast)
  {
  }

  /** A step of the loop of `writeMap` on a text key and a compound value. */
  lemma WriteMapCompoundStep(env: WriteEnv, m: Value, i: nat, dbo: Document)
    requires IdConversionIsSimple(env)
    requires m.MapVal? && i < |m.entries|
    requires m.entries[i].0.Str? && !m.entries[i].1.Null? && !IsSimpleValue(m.entries[i].1)
    ensures EncodeCompound(env, m.entries[i].1).Failure? ==> WriteMapEntries(env, m, i, dbo).Failure?
    ensures EncodeCompound(env, m.entries[i].1).Success? ==>
      WriteMapEntries(env, m, i, dbo)
        == WriteMapEntries(env, m, i + 1, Put(dbo, m.entries[i].0.s, EncodeCompound(env, m.entries[i].1).value))
  {
  }

  /** A map with a key that is not a `String` cannot be stored. */
  lemma NonTextKeyedMapFails(env: WriteEnv, es: seq<(Value, Value)>)
    requires IdConversionIsSimple(env)
    requires exists j :: 0 <= j < |es| && !es[j].0.Str?
    ensures EncodeValue(env, MapVal(es)).Failure?
    ensures (forall j :: 0 <= j < |es| ==> !es[j].1.Null? && IsSimpleValue(es[j].1)) ==>
      EncodeValue(env, MapVal(es)) == Failure(ClassCast)
  {
    var bad :| 0 <= bad < |es| && !es[bad].0.Str?;
    NonTextKeyFailsFrom(env, es, 0, EmptyDocument, bad);
    if forall j :: 0 <= j < |es| ==> !es[j].1.Null? && IsSimpleValue(es[j].1) {
      NonTextKeyCastFrom(env, es, 0, EmptyDocument, bad);
    }
    MapStoredAsDocument(env, MapVal(es));
  }
}
